=== FILE: README.md ===
# pylant call-trace engine in Dafny

pylant draws a PlantUML sequence diagram of a running Python program. It
replaces the functions of the watched modules with wrappers, and the classes
of the watched modules with proxy classes. Each intercepted call appends an
arrow `caller --> callee: member` to a diagram. A call identical to the
previous one is folded into that line as a ` +N` multiplicity. The caller is
found by walking the call stack to the first frame whose file belongs to a
registered module.

This project models that engine from `pylant.py` as pure functions over
explicit state:

- `Results`: `Option` and `Result`.
- `Strings`: the Python string operations the engine uses, each with its
  contract:
  - `in`
  - `rsplit` with a maximum number of cuts
  - `join`
  - `str(int)`
  - `int(str)`
- `Plantuml`: the recorder (`add_call`, `save`). A diagram is the list of
  lines.
- `RunLength`: what a whole sequence of calls does to the diagram. When no
  message can be mistaken for another by the substring test, the diagram body
  is the run-length encoding of the calls.
- `CallerResolver`: `find_the_caller`, as a bounded loop over the stack's
  frame paths and the path-to-module registry.
- `ModuleNames`: how `locate_all_modules` turns paths into dotted module
  names, and which files it keeps.
- `Classifier`: the decision `patch_modules` takes for each attribute of a
  watched module.
- `Patching`: the state `PlantPatch` rewrites, and its operations:
  - proxying classes (`patch_classes`)
  - wrapping functions (`_patch_functions`, `module_to_uniq_map_id`)
  - walking modules (`patch_modules`)
  - what a wrapper or a proxy hook does when the program calls it

  Module attributes are a map from `(module name, attribute name)` to an
  abstract value. Installing a mock or a proxy is an update of that map.

Three details of the code that the model keeps:

- The proxy's construction edge is labelled `__init__`.
- A name is skipped as a constant when it equals its own upper-case form.
  Names with no letters at all (`_`, `_1`) are therefore skipped too.
- A class is skipped when its `__base__` attribute is `Hashable`. For a class
  with several bases, `__base__` is the base Python picks for the instance
  layout, which need not be the first one listed. The model takes the outcome
  of that test as a field of the class.

## Model

| member | source | states |
|---|---|---|
| Strings.ContainsIff | pylant.py:39 | the substring test `message in last` holds exactly when the message occurs at some position of the line |
| Strings.RSplitPiecesFree | pylant.py:40 | every piece of `rsplit` after the first holds no separator |
| Strings.JoinRSplit | pylant.py:40-44 | joining the pieces of `rsplit(" +", 1)` with the separator gives the line back, so `head` and `count` are a true cut of it |
| Strings.ParseIntToString | pylant.py:46 | `int(str(n)) == n` for every integer, so a count the recorder wrote is read back exactly |
| Plantuml.Bump | pylant.py:40-46 | incrementing the last line can only fail (`int` raising) when the line holds a ` +` |
| Plantuml.AddCall | pylant.py:35-48 | a line that does not contain the message gets it appended, one line longer; otherwise the length stays and every earlier line is untouched; a failure only happens on a containing line |
| Plantuml.BumpUnsuffixed | pylant.py:40-46 | a line without ` +` counts as 1 and becomes `line +2` |
| Plantuml.BumpSuffixed | pylant.py:40-46 | a line ending in ` +N` becomes the same head with ` +(N+1)`, whatever the head holds |
| Plantuml.ContainedCallGroups | pylant.py:38-46 | a last line that merely ends with the message absorbs the call, so `x --> b: parse` is counted into `ax --> b: parse` |
| Plantuml.StartTagNeverGroups | pylant.py:19-39 | no message is ever contained in `@startuml`, since every message holds the arrow's dash |
| Plantuml.AddCallFramed | pylant.py:24-48 | `@startuml` stays the first line after every `add_call` |
| Plantuml.AddCallSingleLines | pylant.py:35-48 | calls whose names hold no newline keep every recorded line a single line |
| Plantuml.SaveFrame | pylant.py:26-29 | the saved text starts with `@startuml` and ends with a newline and `@enduml` |
| Plantuml.SaveLines | pylant.py:26-29 | when no recorded line holds a newline, splitting the saved text on newlines gives back exactly the recorded lines followed by `@enduml` |
| RunLength.Replay | pylant.py:35-48 | replaying calls never removes lines and adds at most one line per call |
| RunLength.ReplayIsRunLength | pylant.py:38-48 | when messages hold no ` +`, do not end in a space, and no message is contained in a different neighbouring one, the diagram is `@startuml` followed by one line per run of equal calls: the message alone for a run of one, `message +k` for a run of k ≥ 2 |
| RunLength.ExpandRuns | pylant.py:38-48 | the reference run-length encoding the recorder is compared with loses no call: writing its runs out in full gives back the calls exactly |
| RunLength.BumpRun | pylant.py:40-46 | the line of a run of k calls becomes the line of a run of k+1 calls |
| RunLength.LastRunIsLastCall | pylant.py:38-48 | in the reference run-length encoding of the calls, the last run is a run of the most recent call |
| RunLength.LastLineHoldsLastCall | pylant.py:38-48 | when the messages are distinguishable as above, the diagram's last line contains the most recent call's message. Without that premise it need not: after `c --> b: x +5`, the same call bumps the line to `c --> b: x +6` |
| RunLength.LinesPerRun | pylant.py:38-48 | the diagram has the start tag plus one line per run of equal consecutive calls: one for the first call and one for each call that differs from the call before it |
| RunLength.AddCallReadsOnlyLast | pylant.py:38 | `add_call` looks at the last line only: two diagrams with the same last line get the same change |
| RunLength.InterleavedCallsStaySeparate | pylant.py:38-48 | A, then B, then A, where neither message contains the other, gives three separate lines |
| CallerResolver.FindCaller | pylant.py:70-88 | a success is the registry entry of the first registered frame at or after `stack_level`, found within 1000 advances. Running off the stack first raises `IndexError`, with every frame from `stack_level` on unregistered. Otherwise it raises `NotImplementedError` after 1000 advances, with none of the inspected frames registered |
| CallerResolver.OutcomesExclusive | pylant.py:70-88 | the three outcomes of the caller search exclude one another, and the frame a success stops at is unique |
| ModuleNames.DropLastThree | pylant.py:98 | `s[:-3]` drops the last three characters, or gives the empty text for shorter input |
| ModuleNames.LocateSiblings | pylant.py:91-105 | a file's derived name is kept exactly when the file is not an `__init__.py` and the name is not ignored; the names keep the listing's order |
| ModuleNames.LocateSubPackages | pylant.py:117-123 | each listed package directory's derived name is kept exactly when it is not ignored; every kept name is derived from the directory at its picked position, and the names keep the listing's order |
| ModuleNames.NestCountOfName | pylant.py:113 | `len(name.split('.'))` is the number of dotted components |
| ModuleNames.SubPackageNameOfDir | pylant.py:119-120 | a directory `prefix/s1/.../sn`, cut `n` times, is named `s1.....sn` whatever the prefix |
| ModuleNames.SiblingNameOfFile | pylant.py:98-99 | a file `prefix/s1/.../sn.py`, cut `n` times, is named `s1.....sn` whatever the prefix |
| ModuleNames.SubPackageOfPackage | pylant.py:113-120 | a sub-package `sub` found inside package `p` is named `p.sub` |
| ModuleNames.SiblingOfPackage | pylant.py:113-133 | a file `mod.py` found inside package `p`'s own directory is named `p.mod` |
| Classifier.Classify | pylant.py:182-237 | a function is wrapped exactly when its name is neither constant nor dunder. A class is proxied exactly when, besides that, it is no enum, no exception, its `__base__` is not `Hashable`, and it is declared in a watched module. Everything else is left alone |
| Classifier.ConstantNameIff | pylant.py:184-185 | a name is skipped as a constant exactly when it holds no ASCII lower-case letter |
| Classifier.UpperIsConstant | pylant.py:184-185 | an upper-cased name is always skipped |
| Patching.UniqIdSplit | pylant.py:64-68 | for an attribute name without a dot, the unique id splits back at its last dot into module and attribute name |
| Patching.UniqIdInjective | pylant.py:64-68 | different attributes get different unique ids when attribute names hold no dot |
| Patching.PatchClass | pylant.py:246-294 | a pair seen before changes nothing. Otherwise the pair is marked even if it then fails or is skipped. A missing attribute raises `AttributeError`. A value without `__qualname__` is left alone without error. A class that `type(...)` accepts as a base is replaced by its proxy. Any other value with a `__qualname__` makes `type(...)` raise `TypeError` and keeps its binding: a non-class, an enum with members, `bool`. No other binding or field changes |
| Patching.PatchClasses | pylant.py:246-250 | after a call without exception every given pair is marked, and the original map, registry and diagram are untouched |
| Patching.PatchClassesIdempotent | pylant.py:246-250 | repeating a completed `patch_classes` call changes nothing and raises nothing |
| Patching.SkippedClassNeverRetried | pylant.py:250-273 | a pair skipped for lacking a `__qualname__` is never proxied later, even once rebound to a class |
| Patching.ProxyReplacesOnlyItsBinding | pylant.py:272-294 | a new eligible class's binding becomes the proxy `qualname + "Proxy"`, and every other binding is as before |
| Patching.AliasOverwritesOriginal | pylant.py:150-152 | with `from a import f as h` in `b` while `a` defines `h`, the code as written makes `a.h`'s wrapper delegate to `f` |
| Patching.PatchFunction | pylant.py:150-171 | the attribute is rebound to a wrapper that names the defining module and holds the key the function is stored under. The key is the defining module's id as written, or the found module's id as corrected. No other binding or stored original changes |
| Patching.PatchFunctionKeepsDelegation | pylant.py:150-169 | with the corrected keying (the original keyed by the module the attribute was found in) and attribute names without a dot, wrapping another attribute never changes what an installed wrapper delegates to. As written this fails; see `AliasOverwritesOriginal` |
| Patching.Record | pylant.py:165-167 | a hook fails with no edge when the caller cannot be resolved or `add_call` raises; otherwise the diagram takes exactly the edge from the resolved caller and nothing else changes |
| Patching.CallWrapped | pylant.py:163-169 | an unresolved caller or an `add_call` failure is passed on as that error. Otherwise the call fails exactly when no original is stored under the wrapper's key. A success records the one edge `(caller, defining module, attribute name)` and returns exactly what the stored original returns |
| Patching.ProxyInit | pylant.py:257-263 | constructing a proxied class records one `__init__` edge to the original class's name; an unresolved caller or an `add_call` failure is passed on as that error |
| Patching.InvokeInit | pylant.py:257-263 | a successful construction draws its `__init__` edge from the first registered frame at depth 5 or more, found within 1000 advances. The two caller-search failures and an `add_call` failure mean the same as for a wrapped call |
| Patching.ProxyAttribute | pylant.py:265-269 | each attribute read on a proxy instance records one edge labelled with the attribute name |
| Patching.InvokeWrapped | pylant.py:163-169 | a successful wrapped call draws its edge from the first registered frame at depth 5 or more, found within 1000 advances, and returns the original's result. `IndexError` means no frame from depth 5 on is registered. `NotImplementedError` means none of the 1001 inspected frames is. An `add_call` failure is the one for that first registered frame. A missing original means its key is not stored |
| Patching.InvokeAttribute | pylant.py:265-269 | a successful attribute read draws its edge from the first registered frame at depth 2 or more, found within 1000 advances. The two caller-search failures and an `add_call` failure mean the same as for a wrapped call |
| Patching.WrapperRunsOriginal | pylant.py:150-169 | under either keying, calling a freshly wrapped attribute returns the wrapped function's result. The function does not run when the edge cannot be recorded |
| Patching.ProxyHooksReportClass | pylant.py:257-269 | a fresh proxy's hooks draw their edges to the original class's qualified name |
| Patching.PatchMember | pylant.py:182-237 | a name skipped on sight is never read. A missing attribute raises. After a success the attribute is settled: a skipped value is unchanged, a function is a wrapper whose key stores that function, and a proxyable class is its proxy unless already marked. Other attributes, the registry and the diagram stay as they were. With the keying as written, only originals with the same attribute name may change. With the corrected keying, only the one under this attribute's own id may change |
| Patching.PatchMembers | pylant.py:182-237 | patching one module's attributes leaves the diagram, the registry and other modules' attributes alone. It keeps every original whose id ends in none of the names; with the corrected keying, every original outside this module's ids for those names |
| Patching.PatchMembersSettles | pylant.py:182-237 | after a module's attributes are patched without exception, each one is settled as its own classification dictates, under either keying. This holds when `dir` lists each name once and no name holds a dot |
| Patching.PatchEach | pylant.py:178-237 | under either keying: after a call without exception, every module's path is registered. Attributes of modules outside the list are untouched in any case |
| Patching.PatchModules | pylant.py:173-180 | patching modules never changes the diagram. After a call without exception, every given module's file path is registered |

## Left out

- Files and printing. `save` is modelled as the text it writes; `print` and `write_text` are not modelled.
- The stack, module lookup and imports. `inspect.stack()` becomes the list of frame file paths. `inspect.getmodule` becomes the defining-module field of a function value. Directory globbing, the `exists` check and `importlib.import_module` are not modelled: the listings are inputs.
- The registration of ignored modules at pylant.py:136-141 is not modelled, because it only imports them and stores their paths.
- `mock.patch.object` and `type(...)` are abstracted to binding updates. Running the original function becomes the `run` parameter. The proxy's `__init__` delegating to the class's own constructor, and `object.__getattribute__`, are not modelled, since they run program code.
- A mock returns its own `return_value` when the side effect returns `mock.DEFAULT`. This is not modelled.
- `mock.patch.object` is told `side_effect`, so keyword arguments named `x_module`, `x_method_or_attribute_name` or `x_uniq_map_id` passed by the traced program would override the wrapper's defaults. This is not modelled.
- The debug branches at pylant.py:194-197 and pylant.py:281-292 do nothing and are not modelled.
- `dir()` returns names sorted. The model takes the attribute names in the order given.
- Strings.ParseInt: only ASCII whitespace and ASCII digits are accepted. Python's `int()` also takes other Unicode digits and spaces.
- Classifier.Classify, Classifier.ConstantNameIff: the constant test upper-cases ASCII letters only. Python's `str.upper()` also maps other letters, some to several characters. So a function named `é` is wrapped by the code (`"é".upper() != "é"`) but skipped by the model.
- Patching.PatchMember: a function value always has a defining module. `inspect.getmodule` returns `None` for a function whose `__module__` is not in `sys.modules`. The code then raises `AttributeError` on `None.__name__` when it builds the unique id (pylant.py:199, 150, 68). That error is not modelled.
- CallerResolver.FindCaller: the stack level is a natural number. Negative Python indexing from the end of the stack is not modelled, since the code only uses 5 and 2 and counts upwards.
- Module objects are identified by their `__name__` throughout. Two distinct module objects with the same name are not modelled.
- Concurrency: the engine has none.

## Findings

| source | as written | input that shows it | evidently intended | confidence | as-written member | corrected member |
|---|---|---|---|---|---|---|
| pylant.py:150-152 | the original is stored under `real_module.__name__ + "." + name`, the module that DEFINES the function, although the mock goes into the module where it was FOUND | module `b` does `from a import f as h` while `a` defines its own `h`; `patch_modules(a, b)` stores `f` under `a.h`, so calling `a.h` runs `f` | one stored original per patched attribute, keyed by the module it was found in (`module.__name__ + "." + name`) | not executed; medium | Patching.AliasOverwritesOriginal | Patching.PatchFunctionKeepsDelegation |

`Patching.PatchFunction`, and everything built on it through
`Patching.PatchModules`, takes the keying as a parameter. `DefiningModule` is
the code as written and `FoundModule` is the correction. Each lemma says which
keying it holds for. The edge a wrapper records names the defining module
under both keyings, as in the code.

=== FILE: callerresolver.dfy ===
/** Caller resolution (`find_the_caller`): walk the call stack outwards from a
    starting depth until a frame's file path is a registered module, giving up
    after a fixed number of advances. The stack is passed in as the sequence of
    frame file paths, innermost first; the registry maps file paths to module
    names. */
module CallerResolver {
  import opened Results

  /** How many advances the walk makes before it declares an infinite loop. */
  const MaxAdvances: nat := 1000

  /** The depth the function wrapper and the proxy constructor start at. */
  const WrapperStackLevel: nat := 5

  /** The depth the proxy's attribute hook starts at. */
  const AttributeStackLevel: nat := 2

  datatype ResolveError =
    | StackExhausted   // `IndexError`: the walk ran off the end of the stack
    | InfiniteLoop     // `NotImplementedError('Infinite loop detected')`

  /** No frame in `[lo, hi)` belongs to a registered module. */
  predicate NoneRegistered<M>(frames: seq<string>, registry: map<string, M>, lo: nat, hi: nat)
    requires hi <= |frames|
  {
    forall j :: lo <= j < hi ==> frames[j] !in registry
  }

  /** `i` is the frame the walk stops at: registered, within reach of the
      starting depth, and no registered frame comes before it. */
  predicate FirstRegistered<M>(frames: seq<string>, registry: map<string, M>, stackLevel: nat, i: nat) {
    && stackLevel <= i <= stackLevel + MaxAdvances && i < |frames| && frames[i] in registry
    && NoneRegistered(frames, registry, stackLevel, i)
  }

  /** The walk runs off the end of the stack (`IndexError`). */
  predicate RunsOffStack<M>(frames: seq<string>, registry: map<string, M>, stackLevel: nat) {
    |frames| <= stackLevel + MaxAdvances + 1 && NoneRegistered(frames, registry, stackLevel, |frames|)
  }

  /** The walk gives up after `MaxAdvances` advances. */
  predicate GivesUp<M>(frames: seq<string>, registry: map<string, M>, stackLevel: nat) {
    |frames| > stackLevel + MaxAdvances + 1
    && NoneRegistered(frames, registry, stackLevel, stackLevel + MaxAdvances + 1)
  }

  /** The walk reads `frames[stackLevel]`, then advances one frame at a time;
      the advance that would be number `MaxAdvances + 1` still reads its frame
      (so it can run off the stack first) but then gives up, whatever it read. */
  method FindCaller<M>(frames: seq<string>, registry: map<string, M>, stackLevel: nat)
    returns (r: Result<M, ResolveError>)
    ensures r.Success? ==>
      exists i: nat :: FirstRegistered(frames, registry, stackLevel, i) && r.value == registry[frames[i]]
    ensures r == Failure(StackExhausted) ==> RunsOffStack(frames, registry, stackLevel)
    ensures r == Failure(InfiniteLoop) ==> GivesUp(frames, registry, stackLevel)
  {
    if stackLevel >= |frames| {
      return Failure(StackExhausted);
    }
    var level := stackLevel;
    var path := frames[level];
    var count: nat := 0;
    while path !in registry
      invariant count == level - stackLevel && count <= MaxAdvances
      invariant level < |frames| && path == frames[level]
      invariant NoneRegistered(frames, registry, stackLevel, level)
      decreases MaxAdvances - count
    {
      level := level + 1;
      if level >= |frames| {
        return Failure(StackExhausted);
      }
      path := frames[level];
      count := count + 1;
      if count > MaxAdvances {
        return Failure(InfiniteLoop);
      }
    }
    assert FirstRegistered(frames, registry, stackLevel, level);
    return Success(registry[path]);
  }

  /** The three outcomes exclude one another, and the frame the walk stops at
      is unique: the contract of `FindCaller` pins its result down. */
  lemma OutcomesExclusive<M>(frames: seq<string>, registry: map<string, M>, stackLevel: nat, i: nat, j: nat)
    ensures FirstRegistered(frames, registry, stackLevel, i) && FirstRegistered(frames, registry, stackLevel, j) ==> i == j
    ensures FirstRegistered(frames, registry, stackLevel, i) ==> !RunsOffStack(frames, registry, stackLevel)
    ensures FirstRegistered(frames, registry, stackLevel, i) ==> !GivesUp(frames, registry, stackLevel)
    ensures !(RunsOffStack(frames, registry, stackLevel) && GivesUp(frames, registry, stackLevel))
  {
  }
}

=== FILE: classifier.dfy ===
/** The member classifier of `patch_modules`: which attributes of a watched
    module are left alone, which classes are replaced by a tracing proxy and
    which functions are wrapped. Python objects are abstracted to the facts the
    decision reads. */
module Classifier {
  import opened Results
  import opened Strings

  /** What `issubclass`, `__base__`, `__module__` and `__qualname__` reveal
      about a class. `sealed` says that `type(...)` refuses the class as a
      base next to `object` with a `TypeError` (an enum with members, `bool`,
      `object` itself). A proxy class made by the tracer records in `traced`
      the qualified name its hooks report; a class of the program has `None`. */
  datatype ClassInfo = ClassInfo(
    qualname: string,
    declModule: string,
    isEnum: bool,
    isException: bool,
    baseIsHashable: bool,
    sealed: bool,
    traced: Option<string>)

  /** A module attribute, as far as the tracer can tell it apart. */
  datatype Value =
    | Class(info: ClassInfo)
      /** a plain Python function defined in module `realModule` */
    | Function(qualname: string, realModule: string)
      /** the mock installed in place of a function; calling it runs the
          wrapper for `name` of `realModule`, which delegates to the original
          stored under `uid` */
    | Wrapped(realModule: string, name: string, uid: string)
      /** an `int`, `str`, `float`, module or `Path` */
    | Primitive
      /** anything else; only whether it has a `__qualname__` matters */
    | Other(hasQualname: bool)

  /** Whether `getattr(value, "__qualname__")` succeeds. A mock refuses every
      dunder attribute it was not configured with. */
  predicate HasQualname(v: Value) {
    match v
    case Class(_) => true
    case Function(_, _) => true
    case Wrapped(_, _, _) => false
    case Primitive => false
    case Other(q) => q
  }

  datatype Decision = Skip | ProxyClass | WrapFunction

  /** Python's `str.upper()` on one character, ASCII letters only. */
  function UpperChar(c: char): char {
    if 'a' <= c <= 'z' then (c as int - 32) as char else c
  }

  /** Python's `str.upper()` on a whole string, character by character. */
  function Upper(s: string): string {
    seq(|s|, k requires 0 <= k < |s| => UpperChar(s[k]))
  }

  /** Treated as a constant: the name is its own upper-case form. */
  predicate IsConstantName(name: string) {
    Upper(name) == name
  }

  /** Treated as built in: the name starts with a double underscore. */
  predicate IsDunderName(name: string) {
    |name| >= 2 && name[..2] == "__"
  }

  /** Skipped on its name alone, before the attribute is even read. */
  predicate NameSkipped(name: string) {
    IsConstantName(name) || IsDunderName(name)
  }

  /** A class that may be proxied: not an enum, not an exception, not a
      direct subclass of `Hashable`, and declared in a watched module. */
  predicate Proxyable(c: ClassInfo, watched: set<string>) {
    !c.isEnum && !c.isException && !c.baseIsHashable && c.declModule in watched
  }

  /** The decision `patch_modules` takes for the attribute `name` bound to
      `v`, when `watched` are the names of the modules being patched. */
  function Classify(name: string, v: Value, watched: set<string>): (d: Decision)
    ensures d == WrapFunction <==> !NameSkipped(name) && v.Function?
    ensures d == ProxyClass <==> !NameSkipped(name) && v.Class? && Proxyable(v.info, watched)
  {
    if IsConstantName(name) then Skip
    else if IsDunderName(name) then Skip
    else
      match v
      case Class(c) =>
        if c.isEnum then Skip
        else if c.isException then Skip
        else if c.baseIsHashable then Skip
        else if c.declModule in watched then ProxyClass
        else Skip
      case Function(_, _) => WrapFunction
      case _ => Skip
  }

  // ---------------------------------------------------------------------------
  // Which names count as constants
  // ---------------------------------------------------------------------------

  /** A name is a constant exactly when it holds no lower-case ASCII letter:
      `MAX_SIZE`, `_` and `X1` are skipped, `MyClass` and `run` are not. */
  lemma ConstantNameIff(name: string)
    ensures IsConstantName(name) <==> forall k :: 0 <= k < |name| ==> !('a' <= name[k] <= 'z')
  {
    if IsConstantName(name) {
      forall k | 0 <= k < |name| ensures !('a' <= name[k] <= 'z') {
        assert Upper(name)[k] == name[k];
      }
    } else {
      var u := Upper(name);
      var k :| 0 <= k < |name| && u[k] != name[k];
      assert 'a' <= name[k] <= 'z';
    }
  }

  /** Upper-casing is idempotent, so an upper-cased name is always skipped. */
  lemma UpperIsConstant(name: string)
    ensures IsConstantName(Upper(name))
  {
    var u := Upper(name);
    assert Upper(u) == u by {
      forall k | 0 <= k < |u| ensures Upper(u)[k] == u[k] {
        assert u[k] == UpperChar(name[k]);
      }
    }
  }
}

=== FILE: modulenames.dfy ===
/** Module-name derivation for `locate_all_modules`: a sub-package directory
    or a sibling `.py` file becomes a dotted import name by cutting its path
    on `/` from the right, as many times as the parent's nesting requires,
    and joining every piece but the first with `.`. Only the string work and
    the filtering are modelled; the directory listing is an input. */
module ModuleNames {
  import opened Strings

  const InitFile: string := "__init__.py"

  /** Python's `s[:-3]`: the text without its last three characters (the
      `.py` suffix), or nothing when the text is shorter than that. */
  function DropLastThree(s: string): (r: string)
    ensures |s| >= 3 ==> s == r + s[|s| - 3..]
    ensures |s| < 3 ==> r == []
  {
    if |s| >= 3 then s[..|s| - 3] else []
  }

  /** `len(name.split('.'))`: how many dotted components a module name has. */
  function NestCount(name: string): (n: nat)
    ensures n >= 1
  {
    |RSplit(name, ".", |name|)|
  }

  /** The import name of a sibling file: its path without `.py`, cut on `/`
      at most `nestCount + 2` times from the right, the first piece dropped. */
  function SiblingName(file: string, nestCount: nat): string {
    var pack := RSplit(DropLastThree(file), "/", nestCount + 2);
    Join(".", pack[1..])
  }

  /** The import name of a sub-package directory: cut on `/` at most
      `nestCount + 1` times from the right, the first piece dropped. */
  function SubPackageName(dir: string, nestCount: nat): string {
    var pack := RSplit(dir, "/", nestCount + 1);
    Join(".", pack[1..])
  }

  /** A sibling file is imported unless it is a package's `__init__.py` or its
      derived name is on the ignore list. */
  predicate KeptSibling(file: string, nestCount: nat, ignore: seq<string>) {
    !EndsWith(file, InitFile) && SiblingName(file, nestCount) !in ignore
  }

  /** `_locate_simpling_module`'s filter over one directory listing: the
      derived names of the kept files, in listing order, together with the
      positions of the files they came from. */
  method LocateSiblings(files: seq<string>, nestCount: nat, ignore: seq<string>)
    returns (names: seq<string>, picked: seq<nat>)
    ensures |names| == |picked|
    ensures forall k :: 0 <= k < |picked| ==>
      picked[k] < |files| && names[k] == SiblingName(files[picked[k]], nestCount)
    ensures forall k :: 0 <= k < |names| ==>
      !EndsWith(files[picked[k]], InitFile) && names[k] !in ignore
    ensures forall k, l :: 0 <= k < l < |picked| ==> picked[k] < picked[l]
    ensures forall i :: 0 <= i < |files| ==> (i in picked <==> KeptSibling(files[i], nestCount, ignore))
  {
    names, picked := [], [];
    var i := 0;
    while i < |files|
      invariant 0 <= i <= |files|
      invariant |names| == |picked|
      invariant forall k :: 0 <= k < |picked| ==>
        picked[k] < i && names[k] == SiblingName(files[picked[k]], nestCount)
        && KeptSibling(files[picked[k]], nestCount, ignore)
      invariant forall k, l :: 0 <= k < l < |picked| ==> picked[k] < picked[l]
      invariant forall j :: 0 <= j < i ==> (j in picked <==> KeptSibling(files[j], nestCount, ignore))
    {
      var file := files[i];
      if EndsWith(file, InitFile) {
        i := i + 1;
        continue;
      }
      var name := SiblingName(file, nestCount);
      if name in ignore {
        i := i + 1;
        continue;
      }
      names, picked := names + [name], picked + [i];
      i := i + 1;
    }
  }

  /** The sub-package loop's filter over the listed package directories: the
      derived names that are not ignored, in listing order, together with the
      positions of the directories they came from. */
  method LocateSubPackages(dirs: seq<string>, nestCount: nat, ignore: seq<string>)
    returns (names: seq<string>, picked: seq<nat>)
    ensures |names| == |picked|
    ensures forall k :: 0 <= k < |picked| ==>
      picked[k] < |dirs| && names[k] == SubPackageName(dirs[picked[k]], nestCount) && names[k] !in ignore
    ensures forall k, l :: 0 <= k < l < |picked| ==> picked[k] < picked[l]
    ensures forall i :: 0 <= i < |dirs| ==> (i in picked <==> SubPackageName(dirs[i], nestCount) !in ignore)
  {
    names, picked := [], [];
    var i := 0;
    while i < |dirs|
      invariant 0 <= i <= |dirs|
      invariant |names| == |picked|
      invariant forall k :: 0 <= k < |picked| ==>
        picked[k] < i && names[k] == SubPackageName(dirs[picked[k]], nestCount) && names[k] !in ignore
      invariant forall k, l :: 0 <= k < l < |picked| ==> picked[k] < picked[l]
      invariant forall j :: 0 <= j < i ==> (j in picked <==> SubPackageName(dirs[j], nestCount) !in ignore)
    {
      var name := SubPackageName(dirs[i], nestCount);
      if name !in ignore {
        names, picked := names + [name], picked + [i];
      }
      i := i + 1;
    }
  }

  // ---------------------------------------------------------------------------
  // The derived names are the dotted forms of the paths
  // ---------------------------------------------------------------------------

  /** No component of a path or module name holds the character `c`. */
  predicate FreeOf(segs: seq<string>, c: char) {
    forall k :: 0 <= k < |segs| ==> c !in segs[k]
  }

  /** A module name made of `n` dot-free components has nesting count `n`. */
  lemma NestCountOfName(segs: seq<string>)
    requires |segs| >= 1 && FreeOf(segs, '.')
    ensures NestCount(Join(".", segs)) == |segs|
  {
    JoinLength(".", segs);
    RSplitJoin(".", segs, |Join(".", segs)|);
  }

  /** A directory `prefix/s1/.../sn` read with `n - 1` as nesting count is
      the package `s1.....sn`, whatever the prefix. */
  lemma SubPackageNameOfDir(prefix: string, segs: seq<string>, nestCount: nat)
    requires |segs| == nestCount + 1 && FreeOf(segs, '/')
    ensures SubPackageName(prefix + "/" + Join("/", segs), nestCount) == Join(".", segs)
  {
    JoinCons("/", prefix, segs);
    RSplitJoinTail("/", prefix, segs);
    assert ([prefix] + segs)[1..] == segs;
  }

  /** A file `prefix/s1/.../sn.py` read with `n - 2` as nesting count is the
      module `s1.....sn`, whatever the prefix. */
  lemma SiblingNameOfFile(prefix: string, segs: seq<string>, nestCount: nat)
    requires |segs| == nestCount + 2 && FreeOf(segs, '/')
    ensures SiblingName(prefix + "/" + Join("/", segs) + ".py", nestCount) == Join(".", segs)
  {
    var dir := prefix + "/" + Join("/", segs);
    assert DropLastThree(dir + ".py") == dir;
    SubPackageNameOfDir(prefix, segs, nestCount + 1);
  }

  /** For a package `p1.....pn` stored under `prefix/p1/.../pn`, a sub-package
      directory `sub` found there gets the name `p1.....pn.sub`: the cut count
      derived from the parent's name is the right one. */
  lemma SubPackageOfPackage(prefix: string, pkg: seq<string>, sub: string)
    requires |pkg| >= 1 && FreeOf(pkg, '.') && FreeOf(pkg, '/') && '/' !in sub
    ensures SubPackageName(prefix + "/" + Join("/", pkg + [sub]), NestCount(Join(".", pkg)))
      == Join(".", pkg) + "." + sub
  {
    NestCountOfName(pkg);
    var segs := pkg + [sub];
    assert FreeOf(segs, '/');
    SubPackageNameOfDir(prefix, segs, |pkg|);
    JoinSnoc(".", pkg, sub);
  }

  /** For a package `p1.....pn` stored under `prefix/p1/.../pn`, a file
      `mod.py` next to its `__init__.py` gets the name `p1.....pn.mod`: the
      package's own directory is searched with the nesting count lowered by
      one. */
  lemma SiblingOfPackage(prefix: string, pkg: seq<string>, mod: string, nestCount: nat)
    requires |pkg| >= 1 && FreeOf(pkg, '.') && FreeOf(pkg, '/') && '/' !in mod
    requires nestCount + 1 == NestCount(Join(".", pkg))
    ensures SiblingName(prefix + "/" + Join("/", pkg + [mod]) + ".py", nestCount) == Join(".", pkg) + "." + mod
  {
    NestCountOfName(pkg);
    var segs := pkg + [mod];
    assert FreeOf(segs, '/');
    SiblingNameOfFile(prefix, segs, nestCount);
    JoinSnoc(".", pkg, mod);
  }

}

=== FILE: patching.dfy ===
/** The instrumentation state of `PlantPatch` and the operations on it:
    proxying classes (`patch_classes`), wrapping functions
    (`_patch_functions`), walking the watched modules (`patch_modules`), and
    what a wrapper or a proxy hook does when the traced program calls it.
    Module attributes are a map from `(module name, attribute name)` to the
    abstract value bound there; installing a mock or a proxy is an update of
    that map. */
module Patching {
  import opened Results
  import opened Strings
  import opened Plantuml
  import opened CallerResolver
  import opened Classifier

  /** A module attribute: the module's `__name__` and the attribute name. */
  type Attr = (string, string)

  /** `PlantPatch`'s fields plus the module bindings it rewrites. */
  datatype PatchState = PatchState(
    original: map<string, Value>,          // `_original`: unique id to original function
    modulesByPath: map<string, string>,    // `_modules_by_path`: file path to module name
    patched: set<Attr>,                    // `_patched_classes`
    bindings: map<Attr, Value>,            // what each module attribute is bound to
    uml: Diagram)                          // `_uml`

  /** A fresh tracer over the given module bindings. */
  function Start(bindings: map<Attr, Value>): PatchState {
    PatchState(map[], map[], {}, bindings, Init())
  }

  /** The module the tracer lives in: `type(...)` stamps the proxy classes it
      creates with this `__module__`. */
  const EngineModule: string := "pylant"

  datatype PatchError =
    | AttributeMissing(mod: string, name: string)   // `getattr` raised `AttributeError`
    | CannotSubclass                                   // `type(...)` raised `TypeError`

  /** Patching either completes or stops at an exception; what it changed
      before the exception stays changed. */
  datatype Outcome = Outcome(state: PatchState, error: Option<PatchError>)

  // ---------------------------------------------------------------------------
  // Unique ids
  // ---------------------------------------------------------------------------

  /** `module_to_uniq_map_id`: the module name, a dot, the attribute name. */
  function UniqId(mod: string, name: string): string {
    mod + "." + name
  }

  /** The id splits back at its right-most dot into module and attribute, so
      attribute names (which never hold a dot) make the id unique. */
  lemma UniqIdSplit(mod: string, name: string)
    requires '.' !in name
    ensures RSplit(UniqId(mod, name), ".", 1) == [mod, name]
  {
    JoinSnoc(".", [mod], name);
    assert [mod] + [name] == [mod, name];
    RSplitJoinTail(".", mod, [name]);
  }

  lemma UniqIdInjective(m1: string, n1: string, m2: string, n2: string)
    requires '.' !in n1 && '.' !in n2
    requires UniqId(m1, n1) == UniqId(m2, n2)
    ensures m1 == m2 && n1 == n2
  {
    UniqIdSplit(m1, n1);
    UniqIdSplit(m2, n2);
  }

  // ---------------------------------------------------------------------------
  // patch_classes
  // ---------------------------------------------------------------------------

  /** The class `type(qualname + "Proxy", (cls, object), ...)` builds: it
      inherits what `issubclass` sees, lives in the tracer's module, and its
      hooks report the wrapped class's qualified name. */
  function Proxy(c: ClassInfo): ClassInfo {
    ClassInfo(c.qualname + "Proxy", EngineModule, c.isEnum, c.isException, false, false, Some(c.qualname))
  }

  /** A value `type(...)` accepts as the first base of a proxy. */
  predicate Subclassable(v: Value) {
    v.Class? && !v.info.sealed
  }

  /** One pair of `patch_classes`: a pair seen before is skipped; otherwise it
      is marked first, then the attribute is read, then a value without a
      `__qualname__` is left alone, a class `type(...)` accepts is replaced by
      its proxy, and any other value makes `type(...)` raise. */
  function PatchClass(s: PatchState, a: Attr): (o: Outcome)
    ensures a in s.patched ==> o == Outcome(s, None)
    ensures o.state.patched == s.patched + {a}
    ensures o.state.original == s.original && o.state.modulesByPath == s.modulesByPath && o.state.uml == s.uml
    ensures forall b :: b != a ==> (b in o.state.bindings <==> b in s.bindings)
    ensures forall b :: b != a && b in s.bindings ==> o.state.bindings[b] == s.bindings[b]
    ensures a !in s.patched && a !in s.bindings ==> o.error == Some(AttributeMissing(a.0, a.1))
    ensures a !in s.patched && a in s.bindings && !HasQualname(s.bindings[a]) ==>
      o.error.None? && o.state.bindings == s.bindings
    ensures a !in s.patched && a in s.bindings && Subclassable(s.bindings[a]) ==>
      o.error.None? && o.state.bindings == s.bindings[a := Class(Proxy(s.bindings[a].info))]
    ensures a !in s.patched && a in s.bindings && HasQualname(s.bindings[a]) && !Subclassable(s.bindings[a]) ==>
      o.error == Some(CannotSubclass) && o.state.bindings == s.bindings
  {
    if a in s.patched then Outcome(s, None)
    else
      var marked := s.(patched := s.patched + {a});
      if a !in s.bindings then Outcome(marked, Some(AttributeMissing(a.0, a.1)))
      else
        var v := s.bindings[a];
        if !HasQualname(v) then Outcome(marked, None)
        else if Subclassable(v) then Outcome(marked.(bindings := s.bindings[a := Class(Proxy(v.info))]), None)
        else Outcome(marked, Some(CannotSubclass))
  }

  /** `patch_classes(*classes)`: the pairs in order, stopping at the first
      exception. */
  function PatchClasses(s: PatchState, attrs: seq<Attr>): (o: Outcome)
    ensures o.state.original == s.original && o.state.modulesByPath == s.modulesByPath && o.state.uml == s.uml
    ensures s.patched <= o.state.patched
    ensures o.error.None? ==> forall k :: 0 <= k < |attrs| ==> attrs[k] in o.state.patched
    ensures forall b :: b in s.bindings && (forall k :: 0 <= k < |attrs| ==> attrs[k] != b) ==>
      b in o.state.bindings && o.state.bindings[b] == s.bindings[b]
    decreases |attrs|
  {
    if |attrs| == 0 then Outcome(s, None)
    else
      var first := PatchClass(s, attrs[0]);
      if first.error.Some? then first
      else PatchClasses(first.state, attrs[1..])
  }

  /** Patching pairs that are all marked already changes nothing. */
  lemma {:induction false} PatchClassesMarked(s: PatchState, attrs: seq<Attr>)
    requires forall k :: 0 <= k < |attrs| ==> attrs[k] in s.patched
    ensures PatchClasses(s, attrs) == Outcome(s, None)
    decreases |attrs|
  {
    if |attrs| > 0 {
      PatchClassesMarked(s, attrs[1..]);
    }
  }

  /** `patch_classes` is idempotent: once a call completes, repeating it
      with the same pairs changes nothing and raises nothing. */
  lemma PatchClassesIdempotent(s: PatchState, attrs: seq<Attr>)
    requires PatchClasses(s, attrs).error.None?
    ensures PatchClasses(PatchClasses(s, attrs).state, attrs) == Outcome(PatchClasses(s, attrs).state, None)
  {
    PatchClassesMarked(PatchClasses(s, attrs).state, attrs);
  }

  /** A pair whose value has no `__qualname__` is marked anyway, so a later
      call never looks at it again, even if the attribute has been rebound to
      a class in the meantime. */
  lemma SkippedClassNeverRetried(s: PatchState, a: Attr, c: ClassInfo)
    requires a !in s.patched && a in s.bindings && !HasQualname(s.bindings[a])
    ensures var once := PatchClass(s, a).state;
      PatchClass(once.(bindings := once.bindings[a := Class(c)]), a).state.bindings[a] == Class(c)
  {
  }

  /** A newly proxied class: the attribute now holds a class named after the
      original with `Proxy` appended, whose hooks report the original's name,
      and every other attribute is bound as before. */
  lemma ProxyReplacesOnlyItsBinding(s: PatchState, a: Attr)
    requires a !in s.patched && a in s.bindings && Subclassable(s.bindings[a])
    ensures var o := PatchClass(s, a);
      && o.error.None?
      && o.state.bindings[a].Class?
      && o.state.bindings[a].info.qualname == s.bindings[a].info.qualname + "Proxy"
      && o.state.bindings[a].info.traced == Some(s.bindings[a].info.qualname)
      && forall b :: b in s.bindings && b != a ==> o.state.bindings[b] == s.bindings[b]
  {
  }

  // ---------------------------------------------------------------------------
  // _patch_functions
  // ---------------------------------------------------------------------------

  /** Which module's name keys the stored original of a wrapped function. */
  datatype Keying =
    | DefiningModule   // as written: the module the function was defined in
    | FoundModule      // corrected: the module the attribute was found in

  /** The unique id the original is stored under. */
  function OriginalKey(keying: Keying, mod: string, name: string, fn: Value): string
    requires fn.Function?
  {
    match keying
    case DefiningModule => UniqId(fn.realModule, name)
    case FoundModule => UniqId(mod, name)
  }

  /** `_patch_functions`: the original is stored under its key, and the
      attribute where it was found is rebound to a wrapper that names the
      defining module and that key. */
  function PatchFunction(s: PatchState, keying: Keying, mod: string, name: string, fn: Value): (t: PatchState)
    requires fn.Function?
    ensures (mod, name) in t.bindings
      && t.bindings[(mod, name)] == Wrapped(fn.realModule, name, OriginalKey(keying, mod, name, fn))
    ensures OriginalKey(keying, mod, name, fn) in t.original && t.original[OriginalKey(keying, mod, name, fn)] == fn
    ensures forall b :: b != (mod, name) && b in s.bindings ==> b in t.bindings && t.bindings[b] == s.bindings[b]
    ensures forall u :: u != OriginalKey(keying, mod, name, fn) && u in s.original ==>
      u in t.original && t.original[u] == s.original[u]
    ensures t.patched == s.patched && t.modulesByPath == s.modulesByPath && t.uml == s.uml
  {
    var uid := OriginalKey(keying, mod, name, fn);
    s.(original := s.original[uid := fn],
       bindings := s.bindings[(mod, name) := Wrapped(fn.realModule, name, uid)])
  }

  /** A module `b` that does `from a import f as h` while `a` defines its own
      `h`: once both are patched as written, `a.h`'s wrapper delegates to `f`. */
  lemma AliasOverwritesOriginal()
    ensures var h := Function("h", "a");
      var f := Function("f", "a");
      var s0 := Start(map[("a", "h") := h, ("b", "h") := f]);
      var s := PatchFunction(PatchFunction(s0, DefiningModule, "a", "h", h), DefiningModule, "b", "h", f);
      var w := s.bindings[("a", "h")];
      w.Wrapped? && w.uid in s.original && s.original[w.uid] == f && f != h
  {
  }

  /** The wrapper installed at an attribute delegates to the function that
      was bound there. */
  predicate Delegates(s: PatchState, a: Attr, fn: Value) {
    && a in s.bindings && s.bindings[a].Wrapped?
    && s.bindings[a].uid in s.original && s.original[s.bindings[a].uid] == fn
  }

  /** With the corrected keying, patching another attribute never changes
      what an installed wrapper delegates to, provided attribute names hold
      no dot. */
  lemma PatchFunctionKeepsDelegation(s: PatchState, a: Attr, fn: Value, mod: string, name: string, g: Value)
    requires Delegates(s, a, fn) && s.bindings[a].uid == UniqId(a.0, a.1)
    requires g.Function? && (mod, name) != a && '.' !in a.1 && '.' !in name
    ensures Delegates(PatchFunction(s, FoundModule, mod, name, g), a, fn)
  {
    if UniqId(a.0, a.1) == UniqId(mod, name) {
      UniqIdInjective(a.0, a.1, mod, name);
    }
  }

  // ---------------------------------------------------------------------------
  // What the instrumented program sees
  // ---------------------------------------------------------------------------

  datatype CallError =
    | Unresolved(cause: ResolveError)       // `find_the_caller` raised
    | NotRecorded(reason: AddCallError)     // `add_call` raised
    | MissingOriginal(uid: string)          // `_original[uid]` raised `KeyError`

  /** The first two steps of every hook: resolve the caller's module, then
      record the edge from it to `callee` labelled `member`. `resolved` is
      the result of `FindCaller` over the current stack and `modulesByPath`. */
  function Record(s: PatchState, resolved: Result<string, ResolveError>, callee: string, member: string): (r: Result<PatchState, CallError>)
    requires |s.uml.lines| >= 1
    ensures resolved.Failure? ==> r == Failure(Unresolved(resolved.error))
    ensures resolved.Success? && AddCall(s.uml, resolved.value, callee, member).Failure? ==>
      r == Failure(NotRecorded(AddCall(s.uml, resolved.value, callee, member).error))
    ensures r.Success? ==>
      resolved.Success? && AddCall(s.uml, resolved.value, callee, member) == Success(r.value.uml)
      && r.value == s.(uml := r.value.uml)
  {
    if resolved.Failure? then Failure(Unresolved(resolved.error))
    else
      match AddCall(s.uml, resolved.value, callee, member)
      case Failure(e) => Failure(NotRecorded(e))
      case Success(d) => Success(s.(uml := d))
  }

  /** A call of a wrapped function: one edge from the caller to the
      function's defining module labelled with the attribute name, then the
      stored original runs with the same arguments; `run` stands for running
      a function on those arguments. */
  function CallWrapped<R>(s: PatchState, resolved: Result<string, ResolveError>, w: Value, run: Value -> R): (r: Result<(PatchState, R), CallError>)
    requires |s.uml.lines| >= 1 && w.Wrapped?
    ensures resolved.Failure? ==> r == Failure(Unresolved(resolved.error))
    ensures resolved.Success? && AddCall(s.uml, resolved.value, w.realModule, w.name).Failure? ==>
      r == Failure(NotRecorded(AddCall(s.uml, resolved.value, w.realModule, w.name).error))
    ensures resolved.Success? && AddCall(s.uml, resolved.value, w.realModule, w.name).Success? ==>
      (r.Failure? <==> w.uid !in s.original) && (r.Failure? ==> r.error == MissingOriginal(w.uid))
    ensures r.Success? ==> w.uid in s.original && r.value.1 == run(s.original[w.uid])
    ensures r.Success? ==>
      resolved.Success? && AddCall(s.uml, resolved.value, w.realModule, w.name) == Success(r.value.0.uml)
      && r.value.0 == s.(uml := r.value.0.uml)
  {
    var t :- Record(s, resolved, w.realModule, w.name);
    if w.uid !in s.original then Failure(MissingOriginal(w.uid))
    else Success((t, run(s.original[w.uid])))
  }

  /** The proxy's `__init__` hook: one edge labelled `__init__` to the
      wrapped class's qualified name. */
  function ProxyInit(s: PatchState, resolved: Result<string, ResolveError>, proxy: ClassInfo): (r: Result<PatchState, CallError>)
    requires |s.uml.lines| >= 1 && proxy.traced.Some?
    ensures resolved.Failure? ==> r == Failure(Unresolved(resolved.error))
    ensures resolved.Success? && AddCall(s.uml, resolved.value, proxy.traced.value, "__init__").Failure? ==>
      r == Failure(NotRecorded(AddCall(s.uml, resolved.value, proxy.traced.value, "__init__").error))
    ensures r.Success? ==>
      resolved.Success? && AddCall(s.uml, resolved.value, proxy.traced.value, "__init__") == Success(r.value.uml)
      && r.value == s.(uml := r.value.uml)
    ensures r.Failure? ==> resolved.Failure? || AddCall(s.uml, resolved.value, proxy.traced.value, "__init__").Failure?
  {
    Record(s, resolved, proxy.traced.value, "__init__")
  }

  /** The proxy's `__getattribute__` hook: one edge per attribute read,
      labelled with the attribute name. */
  function ProxyAttribute(s: PatchState, resolved: Result<string, ResolveError>, proxy: ClassInfo, attr: string): (r: Result<PatchState, CallError>)
    requires |s.uml.lines| >= 1 && proxy.traced.Some?
    ensures resolved.Failure? ==> r == Failure(Unresolved(resolved.error))
    ensures resolved.Success? && AddCall(s.uml, resolved.value, proxy.traced.value, attr).Failure? ==>
      r == Failure(NotRecorded(AddCall(s.uml, resolved.value, proxy.traced.value, attr).error))
    ensures r.Success? ==>
      resolved.Success? && AddCall(s.uml, resolved.value, proxy.traced.value, attr) == Success(r.value.uml)
      && r.value == s.(uml := r.value.uml)
    ensures r.Failure? ==> resolved.Failure? || AddCall(s.uml, resolved.value, proxy.traced.value, attr).Failure?
  {
    Record(s, resolved, proxy.traced.value, attr)
  }

  /** Calling an attribute right after it was wrapped records the edge to
      the function's defining module and returns what the function itself
      returns, under either keying; if the edge cannot be recorded the
      function does not run. */
  lemma WrapperRunsOriginal<R>(s: PatchState, keying: Keying, mod: string, name: string, fn: Value, caller: string, run: Value -> R)
    requires fn.Function? && |s.uml.lines| >= 1
    ensures var t := PatchFunction(s, keying, mod, name, fn);
      var r := CallWrapped(t, Success(caller), t.bindings[(mod, name)], run);
      && (AddCall(s.uml, caller, fn.realModule, name).Success? ==>
            r.Success? && r.value.1 == run(fn) && Success(r.value.0.uml) == AddCall(s.uml, caller, fn.realModule, name))
      && (AddCall(s.uml, caller, fn.realModule, name).Failure? ==> r.Failure?)
  {
  }

  /** The hooks of a freshly made proxy report the original class's
      qualified name, not the proxy's. */
  lemma ProxyHooksReportClass(s: PatchState, a: Attr, caller: string, attr: string)
    requires a !in s.patched && a in s.bindings && Subclassable(s.bindings[a]) && |s.uml.lines| >= 1
    ensures var t := PatchClass(s, a).state;
      var q := s.bindings[a].info.qualname;
      && t.bindings[a].Class? && t.bindings[a].info.traced == Some(q)
      && (ProxyInit(t, Success(caller), t.bindings[a].info).Success? ==>
            Success(ProxyInit(t, Success(caller), t.bindings[a].info).value.uml) == AddCall(s.uml, caller, q, "__init__"))
      && (ProxyAttribute(t, Success(caller), t.bindings[a].info, attr).Success? ==>
            Success(ProxyAttribute(t, Success(caller), t.bindings[a].info, attr).value.uml) == AddCall(s.uml, caller, q, attr))
  {
  }

  /** A wrapped call from the stack `frames`: the caller is the first
      registered frame from the wrapper's stack depth on. */
  method InvokeWrapped<R>(s: PatchState, frames: seq<string>, w: Value, run: Value -> R)
    returns (r: Result<(PatchState, R), CallError>)
    requires |s.uml.lines| >= 1 && w.Wrapped?
    ensures r.Success? ==> w.uid in s.original && r.value.1 == run(s.original[w.uid])
    ensures r.Success? ==>
      exists i: nat :: FirstRegistered(frames, s.modulesByPath, WrapperStackLevel, i)
        && AddCall(s.uml, s.modulesByPath[frames[i]], w.realModule, w.name) == Success(r.value.0.uml)
        && r.value.0 == s.(uml := r.value.0.uml)
    ensures r == Failure(Unresolved(StackExhausted)) ==> RunsOffStack(frames, s.modulesByPath, WrapperStackLevel)
    ensures r == Failure(Unresolved(InfiniteLoop)) ==> GivesUp(frames, s.modulesByPath, WrapperStackLevel)
    ensures r.Failure? && r.error.NotRecorded? ==>
      exists i: nat :: FirstRegistered(frames, s.modulesByPath, WrapperStackLevel, i)
        && AddCall(s.uml, s.modulesByPath[frames[i]], w.realModule, w.name) == Failure(r.error.reason)
    ensures r.Failure? && r.error.MissingOriginal? ==> w.uid !in s.original
  {
    var caller := FindCaller(frames, s.modulesByPath, WrapperStackLevel);
    r := CallWrapped(s, caller, w, run);
  }

  /** Constructing a proxy instance from the stack `frames`: the caller is
      the first registered frame from the constructor's stack depth on. */
  method InvokeInit(s: PatchState, frames: seq<string>, proxy: ClassInfo)
    returns (r: Result<PatchState, CallError>)
    requires |s.uml.lines| >= 1 && proxy.traced.Some?
    ensures r.Success? ==>
      exists i: nat :: FirstRegistered(frames, s.modulesByPath, WrapperStackLevel, i)
        && AddCall(s.uml, s.modulesByPath[frames[i]], proxy.traced.value, "__init__") == Success(r.value.uml)
        && r.value == s.(uml := r.value.uml)
    ensures r == Failure(Unresolved(StackExhausted)) ==> RunsOffStack(frames, s.modulesByPath, WrapperStackLevel)
    ensures r == Failure(Unresolved(InfiniteLoop)) ==> GivesUp(frames, s.modulesByPath, WrapperStackLevel)
    ensures r.Failure? && r.error.NotRecorded? ==>
      exists i: nat :: FirstRegistered(frames, s.modulesByPath, WrapperStackLevel, i)
        && AddCall(s.uml, s.modulesByPath[frames[i]], proxy.traced.value, "__init__") == Failure(r.error.reason)
  {
    var caller := FindCaller(frames, s.modulesByPath, WrapperStackLevel);
    r := ProxyInit(s, caller, proxy);
  }

  /** An attribute read on a proxy instance from the stack `frames`: the
      caller is the first registered frame from the attribute hook's stack
      depth on. */
  method InvokeAttribute(s: PatchState, frames: seq<string>, proxy: ClassInfo, attr: string)
    returns (r: Result<PatchState, CallError>)
    requires |s.uml.lines| >= 1 && proxy.traced.Some?
    ensures r.Success? ==>
      exists i: nat :: FirstRegistered(frames, s.modulesByPath, AttributeStackLevel, i)
        && AddCall(s.uml, s.modulesByPath[frames[i]], proxy.traced.value, attr) == Success(r.value.uml)
        && r.value == s.(uml := r.value.uml)
    ensures r == Failure(Unresolved(StackExhausted)) ==> RunsOffStack(frames, s.modulesByPath, AttributeStackLevel)
    ensures r == Failure(Unresolved(InfiniteLoop)) ==> GivesUp(frames, s.modulesByPath, AttributeStackLevel)
    ensures r.Failure? && r.error.NotRecorded? ==>
      exists i: nat :: FirstRegistered(frames, s.modulesByPath, AttributeStackLevel, i)
        && AddCall(s.uml, s.modulesByPath[frames[i]], proxy.traced.value, attr) == Failure(r.error.reason)
  {
    var caller := FindCaller(frames, s.modulesByPath, AttributeStackLevel);
    r := ProxyAttribute(s, caller, proxy, attr);
  }

  // ---------------------------------------------------------------------------
  // patch_modules
  // ---------------------------------------------------------------------------

  /** A watched module: its `__name__`, its `__file__`, and `dir(module)`. */
  datatype ModuleInfo = ModuleInfo(name: string, path: string, members: seq<string>)

  /** What the attribute `a` ends up bound to, judged against the state
      `before` it was patched: left alone when the classifier skips it, a
      wrapper delegating to the function when it is a function, and the proxy
      when it is a proxyable class not marked yet. */
  predicate Settled(before: PatchState, after: PatchState, keying: Keying, a: Attr, watched: set<string>)
    requires a in before.bindings
  {
    var v := before.bindings[a];
    && a in after.bindings
    && match Classify(a.1, v, watched)
       case Skip => after.bindings[a] == v
       case WrapFunction =>
         var key := OriginalKey(keying, a.0, a.1, v);
         after.bindings[a] == Wrapped(v.realModule, a.1, key) && key in after.original && after.original[key] == v
       case ProxyClass =>
         after.bindings[a] == if a in before.patched then v else Class(Proxy(v.info))
  }

  /** One attribute: a name the classifier skips on sight is never read; any
      other is read, then proxied, wrapped or left alone as `Classify`
      decides. */
  function PatchMember(s: PatchState, keying: Keying, mod: string, name: string, watched: set<string>): (o: Outcome)
    ensures o.state.uml == s.uml && o.state.modulesByPath == s.modulesByPath
    ensures forall b :: b != (mod, name) ==> (b in o.state.patched <==> b in s.patched)
    ensures forall b :: b in s.bindings && b != (mod, name) ==> b in o.state.bindings && o.state.bindings[b] == s.bindings[b]
    ensures forall u :: u in s.original && (forall m :: u != UniqId(m, name)) ==>
      u in o.state.original && o.state.original[u] == s.original[u]
    ensures keying == FoundModule ==> forall u :: u in s.original && u != UniqId(mod, name) ==>
      u in o.state.original && o.state.original[u] == s.original[u]
    ensures NameSkipped(name) ==> o == Outcome(s, None)
    ensures !NameSkipped(name) && (mod, name) !in s.bindings ==> o.error == Some(AttributeMissing(mod, name))
    ensures o.error.None? && (mod, name) in s.bindings ==> Settled(s, o.state, keying, (mod, name), watched)
  {
    var a := (mod, name);
    if NameSkipped(name) then Outcome(s, None)
    else if a !in s.bindings then Outcome(s, Some(AttributeMissing(mod, name)))
    else
      var v := s.bindings[a];
      match Classify(name, v, watched)
      case Skip => Outcome(s, None)
      case WrapFunction => Outcome(PatchFunction(s, keying, mod, name, v), None)
      case ProxyClass => PatchClass(s, a)  // `patch_classes` with this one pair
  }

  /** The attributes of one module, in `dir` order, stopping at the first
      exception. */
  function PatchMembers(s: PatchState, keying: Keying, mod: string, names: seq<string>, watched: set<string>): (o: Outcome)
    ensures o.state.uml == s.uml && o.state.modulesByPath == s.modulesByPath
    ensures forall b :: b in s.bindings && (b.0 != mod || b.1 !in names) ==>
      b in o.state.bindings && o.state.bindings[b] == s.bindings[b]
    ensures forall u :: u in s.original && (forall k, m :: 0 <= k < |names| ==> u != UniqId(m, names[k])) ==>
      u in o.state.original && o.state.original[u] == s.original[u]
    ensures keying == FoundModule ==>
      forall u :: u in s.original && (forall k :: 0 <= k < |names| ==> u != UniqId(mod, names[k])) ==>
        u in o.state.original && o.state.original[u] == s.original[u]
    decreases |names|
  {
    if |names| == 0 then Outcome(s, None)
    else
      var first := PatchMember(s, keying, mod, names[0], watched);
      if first.error.Some? then first
      else PatchMembers(first.state, keying, mod, names[1..], watched)
  }

  /** After a module's attributes are patched without exception, each one is
      settled as its own classification dictates, whatever the others are:
      under either keying, as long as `dir` lists each name once and no name
      holds a dot. */
  lemma {:induction false} PatchMembersSettles(s: PatchState, keying: Keying, mod: string, names: seq<string>, watched: set<string>, k: nat)
    requires PatchMembers(s, keying, mod, names, watched).error.None?
    requires forall i, j :: 0 <= i < j < |names| ==> names[i] != names[j]
    requires forall i :: 0 <= i < |names| ==> '.' !in names[i]
    requires k < |names| && (mod, names[k]) in s.bindings
    ensures Settled(s, PatchMembers(s, keying, mod, names, watched).state, keying, (mod, names[k]), watched)
    decreases |names|
  {
    var first := PatchMember(s, keying, mod, names[0], watched);
    var rest := names[1..];
    assert first.error.None?;
    assert PatchMembers(s, keying, mod, names, watched) == PatchMembers(first.state, keying, mod, rest, watched);
    if k == 0 {
      PatchMembersSettlesFirst(s, keying, mod, names, watched);
    } else {
      var a := (mod, names[k]);
      assert names[k] == rest[k - 1] && names[k] != names[0];
      assert forall i, j :: 0 <= i < j < |rest| ==> rest[i] != rest[j] by {
        forall i, j | 0 <= i < j < |rest| ensures rest[i] != rest[j] {
          assert rest[i] == names[i + 1] && rest[j] == names[j + 1];
        }
      }
      assert a in first.state.bindings && first.state.bindings[a] == s.bindings[a];
      assert a in first.state.patched <==> a in s.patched;
      PatchMembersSettles(first.state, keying, mod, rest, watched, k - 1);
    }
  }

  /** The first attribute stays settled while the rest are patched. */
  lemma PatchMembersSettlesFirst(s: PatchState, keying: Keying, mod: string, names: seq<string>, watched: set<string>)
    requires |names| > 0 && (mod, names[0]) in s.bindings
    requires PatchMember(s, keying, mod, names[0], watched).error.None?
    requires forall i, j :: 0 <= i < j < |names| ==> names[i] != names[j]
    requires forall i :: 0 <= i < |names| ==> '.' !in names[i]
    ensures Settled(s, PatchMembers(PatchMember(s, keying, mod, names[0], watched).state, keying, mod, names[1..], watched).state,
      keying, (mod, names[0]), watched)
  {
    var name := names[0];
    var a := (mod, name);
    var t := PatchMember(s, keying, mod, name, watched).state;
    var rest := names[1..];
    var u := PatchMembers(t, keying, mod, rest, watched).state;
    assert name !in rest by {
      forall j | 0 <= j < |rest| ensures rest[j] != name {
        assert rest[j] == names[j + 1];
      }
    }
    assert a in u.bindings && u.bindings[a] == t.bindings[a];
    var v := s.bindings[a];
    if Classify(name, v, watched) == WrapFunction {
      var key := OriginalKey(keying, mod, name, v);
      var m0 := if keying == DefiningModule then v.realModule else mod;
      assert key == UniqId(m0, name);
      forall j, m | 0 <= j < |rest| ensures key != UniqId(m, rest[j]) {
        if key == UniqId(m, rest[j]) {
          UniqIdInjective(m0, name, m, rest[j]);
        }
      }
    }
  }

  /** The modules in order: each is registered under its file path, then its
      attributes are patched. */
  function PatchEach(s: PatchState, keying: Keying, mods: seq<ModuleInfo>, watched: set<string>): (o: Outcome)
    ensures o.state.uml == s.uml
    ensures forall p :: p in s.modulesByPath ==> p in o.state.modulesByPath
    ensures o.error.None? ==> forall k :: 0 <= k < |mods| ==> mods[k].path in o.state.modulesByPath
    ensures forall b :: b in s.bindings && (forall k :: 0 <= k < |mods| ==> b.0 != mods[k].name) ==>
      b in o.state.bindings && o.state.bindings[b] == s.bindings[b]
    decreases |mods|
  {
    if |mods| == 0 then Outcome(s, None)
    else
      var m := mods[0];
      var registered := s.(modulesByPath := s.modulesByPath[m.path := m.name]);
      var o := PatchMembers(registered, keying, m.name, m.members, watched);
      if o.error.Some? then o
      else PatchEach(o.state, keying, mods[1..], watched)
  }

  /** `patch_modules(*modules)`: the watched set is every given module's
      name. */
  function PatchModules(s: PatchState, keying: Keying, mods: seq<ModuleInfo>): (o: Outcome)
    ensures o.state.uml == s.uml
    ensures o.error.None? ==> forall k :: 0 <= k < |mods| ==> mods[k].path in o.state.modulesByPath
  {
    PatchEach(s, keying, mods, set k | 0 <= k < |mods| :: mods[k].name)
  }
}

=== FILE: plantuml.dfy ===
/** The diagram recorder (class `Plantuml`): an ordered list of PlantUML
    sequence-diagram lines framed by start and end tags, where a call equal to
    the previous one is folded into that line as a ` +N` multiplicity. */
module Plantuml {
  import opened Results
  import opened Strings

  const StartTag: string := "@startuml"
  const EndTag: string := "@enduml"

  /** What separates a grouped line from its multiplicity. */
  const CountSep: string := " +"

  /** The recorder's `_content`: every line written so far, start tag first. */
  datatype Diagram = Diagram(lines: seq<string>)

  /** A recorder as constructed: only the start tag. */
  function Init(): Diagram {
    Diagram([StartTag])
  }

  /** The start tag is the first line and is never rewritten. */
  predicate Framed(d: Diagram) {
    |d.lines| >= 1 && d.lines[0] == StartTag
  }

  /** The arrow line for one call: `caller --> to: member`. */
  function Message(caller: string, callee: string, member: string): string {
    caller + " --> " + callee + ": " + member
  }

  /** `add_call` can only fail where `int(count)` raises `ValueError`. */
  datatype AddCallError = CountNotInteger(count: string)

  /** The previous line with its multiplicity incremented: the text after the
      right-most ` +` is the count, a line without one counts as 1. */
  function Bump(last: string): (r: Result<string, AddCallError>)
    ensures r.Failure? ==> Contains(last, CountSep)
  {
    var parts := RSplit(last, CountSep, 1);
    var count := if |parts| == 1 then "1" else parts[1];
    match ParseInt(count)
    case None =>
      assert |parts| != 1 by {
        if |parts| == 1 {
          ParseIntToString(1);
        }
      }
      assert Contains(last, CountSep) by {
        var found := LastIndexOf(last, CountSep);
        assert found.Some?;
        ContainsIff(last, CountSep);
      }
      Failure(CountNotInteger(count))
    case Some(n) => Success(parts[0] + CountSep + IntToString(n + 1))
  }

  /** Records one call. The last line is searched for the message as a
      SUBSTRING (Python's `in`), so a line that merely contains it is grouped
      too; otherwise the message becomes a new line. */
  function AddCall(d: Diagram, caller: string, callee: string, member: string): (r: Result<Diagram, AddCallError>)
    requires |d.lines| >= 1
    ensures var n := |d.lines|;
      !Contains(d.lines[n - 1], Message(caller, callee, member)) ==>
        r == Success(Diagram(d.lines + [Message(caller, callee, member)]))
    ensures var n := |d.lines|;
      Contains(d.lines[n - 1], Message(caller, callee, member)) && r.Success? ==>
        |r.value.lines| == n && r.value.lines[..n - 1] == d.lines[..n - 1]
    ensures r.Failure? ==> Contains(d.lines[|d.lines| - 1], Message(caller, callee, member))
  {
    var msg := Message(caller, callee, member);
    var n := |d.lines|;
    if Contains(d.lines[n - 1], msg) then
      var bumped := Bump(d.lines[n - 1]);
      if bumped.Failure? then Failure(bumped.error)
      else
        assert (d.lines[..n - 1] + [bumped.value])[..n - 1] == d.lines[..n - 1];
        Success(Diagram(d.lines[..n - 1] + [bumped.value]))
    else
      Success(Diagram(d.lines + [msg]))
  }

  /** The text `save` writes: the lines, then the end tag, one per line. */
  function Save(d: Diagram): string {
    Join("\n", d.lines + [EndTag])
  }

  // ---------------------------------------------------------------------------
  // The three outcomes of add_call
  // ---------------------------------------------------------------------------

  /** A message the last line does not hold is appended as a new line. */
  lemma AddCallAppended(d: Diagram, caller: string, callee: string, member: string)
    requires |d.lines| >= 1 && !Contains(d.lines[|d.lines| - 1], Message(caller, callee, member))
    ensures AddCall(d, caller, callee, member) == Success(Diagram(d.lines + [Message(caller, callee, member)]))
  {
  }

  /** A message the last line holds replaces that line by its bumped form. */
  lemma AddCallBumped(d: Diagram, caller: string, callee: string, member: string, line: string)
    requires |d.lines| >= 1 && Contains(d.lines[|d.lines| - 1], Message(caller, callee, member))
    requires Bump(d.lines[|d.lines| - 1]) == Success(line)
    ensures AddCall(d, caller, callee, member) == Success(Diagram(d.lines[..|d.lines| - 1] + [line]))
  {
  }

  /** A message the last line holds, on a line whose count does not parse,
      fails the call with the parse error. */
  lemma AddCallRefused(d: Diagram, caller: string, callee: string, member: string, err: AddCallError)
    requires |d.lines| >= 1 && Contains(d.lines[|d.lines| - 1], Message(caller, callee, member))
    requires Bump(d.lines[|d.lines| - 1]) == Failure(err)
    ensures AddCall(d, caller, callee, member) == Failure(err)
  {
  }

  // ---------------------------------------------------------------------------
  // Properties of Bump
  // ---------------------------------------------------------------------------

  /** The first piece of a one-cut `rsplit` is a prefix of the string. */
  lemma RSplitHeadPrefix(s: string, sep: string)
    requires |sep| > 0
    ensures |RSplit(s, sep, 1)[0]| <= |s| && s[..|RSplit(s, sep, 1)[0]|] == RSplit(s, sep, 1)[0]
  {
    var found := LastIndexOf(s, sep);
    if found.Some? {
      RSplitStep(s, sep, 1, found.value);
    }
  }

  /** A line without a multiplicity counts as one and becomes ` +2`. */
  lemma BumpUnsuffixed(last: string)
    requires !Contains(last, CountSep)
    ensures Bump(last) == Success(last + CountSep + "2")
  {
    ContainsIff(last, CountSep);
    assert LastIndexOf(last, CountSep) == None;
    ParseIntToString(1);
  }

  /** A line ending in ` +N` becomes the same head with ` +(N+1)`, whatever
      the head holds: the count never contains a space, so its separator is the
      right-most one. */
  lemma BumpSuffixed(head: string, n: int)
    ensures Bump(head + CountSep + IntToString(n)) == Success(head + CountSep + IntToString(n + 1))
  {
    SplitSuffixed(head, IntToString(n));
    ParseIntToString(n);
  }

  /** `rsplit(" +", 1)` of a line ending in ` +` and a text without spaces
      cuts exactly there. */
  lemma SplitSuffixed(head: string, count: string)
    requires ' ' !in count
    ensures RSplit(head + CountSep + count, CountSep, 1) == [head, count]
  {
    var last := head + CountSep + count;
    assert last[|head|..|head| + 2] == CountSep;
    forall j: nat | |head| < j
      ensures !OccursAt(last, CountSep, j)
    {
      if j + 2 <= |last| {
        assert last[j] == last[j..j + 2][0];
        if j == |head| + 1 {
          assert last[j] == '+';
        } else {
          assert last[j] == count[j - |head| - 2];
        }
      }
    }
    LastIndexOfIs(last, CountSep, |head|);
    RSplitStep(last, CountSep, 1, |head|);
    assert last[..|head|] == head;
    assert last[|head| + 2..] == count;
  }

  /** The head `Bump` keeps is a prefix of the old line, so a character that
      cannot come from the count was already in the old line. */
  lemma BumpChars(last: string, c: char)
    requires Bump(last).Success? && c in Bump(last).value
    requires c != ' ' && c != '+' && c != '-' && !IsDigit(c)
    ensures c in last
  {
    var parts := RSplit(last, CountSep, 1);
    var count := if |parts| == 1 then "1" else parts[1];
    var n := ParseInt(count).value;
    var digits := IntToString(n + 1);
    var line := parts[0] + CountSep + digits;
    assert Bump(last).value == line;
    var k :| 0 <= k < |line| && line[k] == c;
    assert k < |parts[0]|;
    RSplitHeadPrefix(last, CountSep);
    assert last[k] == parts[0][k];
  }

  /** Grouping tests containment, not equality: a last line that merely
      ends with the message (`ax --> b: parse` for a call from `x`) absorbs
      the call as if it were the same one. */
  lemma ContainedCallGroups(d: Diagram, pre: string, caller: string, callee: string, member: string)
    requires |d.lines| >= 1 && d.lines[|d.lines| - 1] == pre + Message(caller, callee, member)
    requires !Contains(d.lines[|d.lines| - 1], CountSep)
    ensures AddCall(d, caller, callee, member)
      == Success(Diagram(d.lines[..|d.lines| - 1] + [pre + Message(caller, callee, member) + CountSep + "2"]))
  {
    var line := d.lines[|d.lines| - 1];
    var msg := Message(caller, callee, member);
    assert line[|pre|..|pre| + |msg|] == msg;
    assert OccursAt(line, msg, |pre|);
    ContainsIff(line, msg);
    BumpUnsuffixed(line);
  }

  // ---------------------------------------------------------------------------
  // Framing
  // ---------------------------------------------------------------------------

  /** Every message contains the arrow's dash. */
  lemma MessageHasDash(caller: string, callee: string, member: string)
    ensures '-' in Message(caller, callee, member)
  {
    assert Message(caller, callee, member)[|caller| + 1] == '-';
  }

  /** The start tag can never absorb a message: it has no dash. */
  lemma StartTagNeverGroups(caller: string, callee: string, member: string)
    ensures !Contains(StartTag, Message(caller, callee, member))
  {
    MessageHasDash(caller, callee, member);
    if Contains(StartTag, Message(caller, callee, member)) {
      ContainsChars(StartTag, Message(caller, callee, member), '-');
    }
  }

  /** `add_call` keeps the start tag as the first line. */
  lemma AddCallFramed(d: Diagram, caller: string, callee: string, member: string)
    requires Framed(d)
    ensures AddCall(d, caller, callee, member).Success? ==> Framed(AddCall(d, caller, callee, member).value)
  {
    if |d.lines| == 1 {
      StartTagNeverGroups(caller, callee, member);
    } else {
      var r := AddCall(d, caller, callee, member);
      if r.Success? {
        assert r.value.lines[0] == r.value.lines[..|d.lines| - 1][0];
      }
    }
  }

  /** No line spans two lines of the output file. */
  predicate SingleLines(d: Diagram) {
    forall k :: 0 <= k < |d.lines| ==> '\n' !in d.lines[k]
  }

  /** Calls whose names hold no newline keep every line a single line. */
  lemma AddCallSingleLines(d: Diagram, caller: string, callee: string, member: string)
    requires |d.lines| >= 1 && SingleLines(d)
    requires '\n' !in caller && '\n' !in callee && '\n' !in member
    ensures AddCall(d, caller, callee, member).Success? ==> SingleLines(AddCall(d, caller, callee, member).value)
  {
    var n := |d.lines|;
    var msg := Message(caller, callee, member);
    if Contains(d.lines[n - 1], msg) {
      var bumped := Bump(d.lines[n - 1]);
      if bumped.Success? {
        AddCallBumped(d, caller, callee, member, bumped.value);
        BumpedSingleLine(d.lines[n - 1]);
        ExtendSingleLines(d, Diagram(d.lines[..n - 1] + [bumped.value]), bumped.value);
      } else {
        AddCallRefused(d, caller, callee, member, bumped.error);
      }
    } else {
      AddCallAppended(d, caller, callee, member);
      MessageSingleLine(caller, callee, member);
      ExtendSingleLines(d, Diagram(d.lines + [msg]), msg);
    }
  }

  /** A diagram whose lines are those of `d`, the last possibly replaced,
      and then possibly one more line `last`, keeps single lines. */
  lemma ExtendSingleLines(d: Diagram, e: Diagram, last: string)
    requires SingleLines(d) && '\n' !in last && |d.lines| >= 1
    requires e.lines == d.lines + [last] || e.lines == d.lines[..|d.lines| - 1] + [last]
    ensures SingleLines(e)
  {
    forall k | 0 <= k < |e.lines| ensures '\n' !in e.lines[k] {
      if k < |d.lines| - 1 || (k < |d.lines| && e.lines == d.lines + [last]) {
        assert e.lines[k] == d.lines[k];
      } else {
        assert e.lines[k] == last;
      }
    }
  }

  lemma MessageSingleLine(caller: string, callee: string, member: string)
    requires '\n' !in caller && '\n' !in callee && '\n' !in member
    ensures '\n' !in Message(caller, callee, member)
  {
  }

  lemma BumpedSingleLine(last: string)
    requires '\n' !in last && Bump(last).Success?
    ensures '\n' !in Bump(last).value
  {
    if '\n' in Bump(last).value {
      BumpChars(last, '\n');
    }
  }

  /** `Join` starts with its first piece. */
  lemma {:induction false} JoinStartsWith(sep: string, parts: seq<string>)
    requires |parts| >= 1
    ensures |parts[0]| <= |Join(sep, parts)| && Join(sep, parts)[..|parts[0]|] == parts[0]
    decreases |parts|
  {
    if |parts| > 1 {
      var front := parts[..|parts| - 1];
      JoinStartsWith(sep, front);
      var j := Join(sep, front);
      assert Join(sep, parts) == j + sep + parts[|parts| - 1];
      assert (j + sep + parts[|parts| - 1])[..|parts[0]|] == j[..|parts[0]|];
    }
  }

  /** The saved text opens with the start tag and closes with the end tag on
      its own line. */
  lemma SaveFrame(d: Diagram)
    requires Framed(d)
    ensures var text := Save(d);
      && |StartTag| <= |text| && text[..|StartTag|] == StartTag
      && EndsWith(text, "\n" + EndTag)
  {
    var all := d.lines + [EndTag];
    JoinStartsWith("\n", all);
    JoinSnoc("\n", d.lines, EndTag);
    assert all[0] == StartTag;
  }

  /** Splitting the saved text on newlines gives back the recorded lines and
      the end tag. */
  lemma SaveLines(d: Diagram)
    requires SingleLines(d)
    ensures RSplit(Save(d), "\n", |d.lines|) == d.lines + [EndTag]
  {
    var all := d.lines + [EndTag];
    forall k | 0 <= k < |all| ensures "\n"[0] !in all[k] {
      if k == |d.lines| {
        assert all[k] == EndTag;
      }
    }
    RSplitJoin("\n", all, |d.lines|);
  }
}

=== FILE: results.dfy ===
/** Failure-carrying wrappers shared by every component of the model. */
module Results {

  /** An optional value, for lookups that may find nothing. */
  datatype Option<+T> = None | Some(value: T)

  /** The outcome of an operation that either produces a value or raises. */
  datatype Result<+R, +E> = Success(value: R) | Failure(error: E) {
    predicate IsFailure() {
      Failure?
    }

    function PropagateFailure<U>(): Result<U, E>
      requires Failure?
    {
      Failure(error)
    }

    function Extract(): R
      requires Success?
    {
      value
    }
  }
}

=== FILE: runlength.dfy ===
/** Replaying a whole call sequence through the recorder. When no message can
    be mistaken for another by the substring test, the recorder's body is
    exactly the run-length encoding of the calls. */
module RunLength {
  import opened Results
  import opened Strings
  import opened Plantuml

  /** One intercepted call: who called, which actor was called, which member. */
  datatype Edge = Edge(caller: string, callee: string, member: string)

  function Text(e: Edge): string {
    Message(e.caller, e.callee, e.member)
  }

  /** `add_call` applied to each edge in turn, stopping at the first error. */
  function Replay(d: Diagram, es: seq<Edge>): (r: Result<Diagram, AddCallError>)
    requires |d.lines| >= 1
    ensures r.Success? ==> |d.lines| <= |r.value.lines| <= |d.lines| + |es|
    decreases |es|
  {
    if |es| == 0 then
      Success(d)
    else
      match Replay(d, es[..|es| - 1])
      case Failure(err) => Failure(err)
      case Success(before) =>
        var e := es[|es| - 1];
        AddCall(before, e.caller, e.callee, e.member)
  }

  /** A maximal block of equal consecutive calls. */
  datatype Run = Run(edge: Edge, count: nat)

  /** Consecutive runs always hold different calls. Neighbours are named as
      a pair `i, j` with `j == i + 1`: with `rs[i + 1]` in the body, each
      instance of the quantifier would produce the term that triggers the
      next one. */
  ghost predicate Maximal(rs: seq<Run>) {
    forall i, j :: 0 <= i < j < |rs| && j == i + 1 ==> rs[i].edge != rs[j].edge
  }

  /** One call added to an encoding: it lengthens the last run when it
      repeats that run's call, and opens a new run otherwise. */
  function Step(rs: seq<Run>, e: Edge): (rs': seq<Run>)
    ensures |rs'| > 0 && rs'[|rs'| - 1].edge == e && rs'[|rs'| - 1].count >= 1
  {
    if |rs| > 0 && rs[|rs| - 1].edge == e then
      rs[..|rs| - 1] + [Run(e, rs[|rs| - 1].count + 1)]
    else
      rs + [Run(e, 1)]
  }

  /** The run-length encoding of a call sequence, computed on calls rather
      than on text. */
  function Runs(es: seq<Edge>): (rs: seq<Run>)
    ensures |rs| <= |es|
    ensures |rs| == 0 <==> |es| == 0
    ensures forall k :: 0 <= k < |rs| ==> rs[k].count >= 1
    ensures Maximal(rs)
    decreases |es|
  {
    if |es| == 0 then
      []
    else
      var rs := Runs(es[..|es| - 1]);
      var e := es[|es| - 1];
      var rs' := Step(rs, e);
      assert Maximal(rs') by {
        if |rs| > 0 && rs[|rs| - 1].edge == e {
          assert forall k :: 0 <= k < |rs| - 1 ==> rs'[k] == rs[k];
        } else {
          assert forall k :: 0 <= k < |rs| ==> rs'[k] == rs[k];
        }
      }
      rs'
  }

  lemma RunsSnoc(pre: seq<Edge>, e: Edge)
    ensures Runs(pre + [e]) == Step(Runs(pre), e)
  {
    assert (pre + [e])[..|pre|] == pre;
  }

  /** `count` copies of one call. */
  function Repeat(e: Edge, count: nat): (es: seq<Edge>)
    ensures |es| == count
  {
    if count == 0 then [] else Repeat(e, count - 1) + [e]
  }

  /** Decompression: every run written out in full. */
  function Expand(rs: seq<Run>): seq<Edge>
  {
    if |rs| == 0 then [] else Expand(rs[..|rs| - 1]) + Repeat(rs[|rs| - 1].edge, rs[|rs| - 1].count)
  }

  /** Positions where a new run starts: the first call and every call that
      differs from its predecessor. */
  function RunStarts(es: seq<Edge>): nat
  {
    if |es| == 0 then 0
    else RunStarts(es[..|es| - 1]) + (if |es| == 1 || es[|es| - 2] != es[|es| - 1] then 1 else 0)
  }

  /** The line a run is drawn as: the message alone once, with ` +N` after. */
  function RenderRun(r: Run): string {
    if r.count == 1 then Text(r.edge) else Text(r.edge) + CountSep + NatToString(r.count)
  }

  /** The lines of a sequence of runs, one per run. */
  function Rendered(rs: seq<Run>): (lines: seq<string>)
    ensures |lines| == |rs|
    decreases |rs|
  {
    if |rs| == 0 then [] else Rendered(rs[..|rs| - 1]) + [RenderRun(rs[|rs| - 1])]
  }

  /** A message that the grouping cannot misread: no ` +` inside it, and it
      does not end in a space. */
  predicate Plain(m: string) {
    !Contains(m, CountSep) && (|m| == 0 || m[|m| - 1] != ' ')
  }

  /** The conditions under which the substring test behaves as an equality
      test on consecutive calls. */
  ghost predicate Distinguishable(es: seq<Edge>) {
    && (forall k :: 0 <= k < |es| ==> Plain(Text(es[k])))
    && (forall i, j :: 0 <= i < j < |es| && j == i + 1 && es[i] != es[j] ==> !Contains(Text(es[i]), Text(es[j])))
  }

  // ---------------------------------------------------------------------------
  // Properties of the reference encoding
  // ---------------------------------------------------------------------------

  lemma ExpandSnoc(rs: seq<Run>, r: Run)
    ensures Expand(rs + [r]) == Expand(rs) + Repeat(r.edge, r.count)
  {
    assert (rs + [r])[..|rs|] == rs;
  }

  /** Writing out the encoding after one more call writes out one more call. */
  lemma ExpandStep(rs: seq<Run>, e: Edge)
    ensures Expand(Step(rs, e)) == Expand(rs) + [e]
  {
    if |rs| > 0 && rs[|rs| - 1].edge == e {
      var r := rs[|rs| - 1];
      var front := rs[..|rs| - 1];
      assert rs == front + [r];
      ExpandSnoc(front, r);
      ExpandSnoc(front, Run(e, r.count + 1));
    } else {
      ExpandSnoc(rs, Run(e, 1));
    }
  }

  /** Writing the runs out in full gives back the calls. */
  lemma {:induction false} ExpandRuns(es: seq<Edge>)
    ensures Expand(Runs(es)) == es
    decreases |es|
  {
    if |es| > 0 {
      var pre := es[..|es| - 1];
      var e := es[|es| - 1];
      assert es == pre + [e];
      ExpandRuns(pre);
      RunsSnoc(pre, e);
      ExpandStep(Runs(pre), e);
    }
  }

  /** There are exactly as many runs as positions where a run starts. */
  lemma {:induction false} RunsCount(es: seq<Edge>)
    ensures |Runs(es)| == RunStarts(es)
    decreases |es|
  {
    if |es| > 0 {
      RunsCount(es[..|es| - 1]);
      if |es| > 1 {
        assert es[..|es| - 1][|es| - 2] == es[|es| - 2];
      }
    }
  }

  // ---------------------------------------------------------------------------
  // The recorder implements the encoding
  // ---------------------------------------------------------------------------

  lemma ReplaySnoc(d: Diagram, es: seq<Edge>, e: Edge)
    requires |d.lines| >= 1
    ensures Replay(d, es + [e]) ==
      match Replay(d, es)
      case Failure(err) => Failure(err)
      case Success(before) => AddCall(before, e.caller, e.callee, e.member)
  {
    assert (es + [e])[..|es|] == es;
  }

  lemma RenderedSnoc(rs: seq<Run>, r: Run)
    ensures Rendered(rs + [r]) == Rendered(rs) + [RenderRun(r)]
  {
    assert (rs + [r])[..|rs|] == rs;
  }

  lemma RenderedReplaceLast(rs: seq<Run>, r: Run)
    requires |rs| > 0
    ensures Rendered(rs[..|rs| - 1] + [r]) == Rendered(rs)[..|rs| - 1] + [RenderRun(r)]
  {
    var front := rs[..|rs| - 1];
    assert (front + [r])[..|front|] == front;
    assert Rendered(rs) == Rendered(front) + [RenderRun(rs[|rs| - 1])];
    assert Rendered(rs)[..|rs| - 1] == Rendered(front);
  }

  /** Every message carries the arrow's `>`. */
  lemma TextHasArrowHead(e: Edge)
    ensures '>' in Text(e)
  {
    assert Text(e)[|e.caller| + 3] == '>';
  }

  /** A plain message not found in a line is not found in that line with a
      ` +N` multiplicity appended either. */
  lemma NotInSuffixed(line: string, m: string, n: nat)
    requires Plain(m) && '>' in m
    requires !Contains(line, m)
    ensures !Contains(line + CountSep + NatToString(n), m)
  {
    var grown := line + CountSep + NatToString(n);
    if Contains(grown, m) {
      ContainsIff(grown, m);
      var i: nat :| OccursAt(grown, m, i);
      if i + |m| <= |line| {
        FoundInFront(line, CountSep + NatToString(n), m, i);
      } else if i <= |line| {
        StraddlingMatch(line, CountSep, NatToString(n), m, i);
      } else {
        MatchInCount(line, NatToString(n), m, i);
      }
    }
  }

  /** A match that covers the first character of a two-character separator
      either ends on it or contains the whole separator. */
  lemma StraddlingMatch(line: string, sep: string, rest: string, m: string, i: nat)
    requires |sep| == 2 && OccursAt(line + sep + rest, m, i)
    requires i <= |line| < i + |m|
    ensures m[|m| - 1] == sep[0] || Contains(m, sep)
  {
    var grown := line + sep + rest;
    var p := |line| - i;
    assert m == grown[i..i + |m|];
    if p + 1 < |m| {
      assert m[p..p + 2] == grown[|line|..|line| + 2] == sep;
      OccursContains(m, sep, p);
    } else {
      assert m[p] == grown[|line|] == sep[0];
    }
  }

  /** A match that starts after the space of ` +` lies inside `+N`, which has
      no `>`. */
  lemma MatchInCount(line: string, count: string, m: string, i: nat)
    requires forall k :: 0 <= k < |count| ==> IsDigit(count[k])
    requires OccursAt(line + CountSep + count, m, i) && i > |line|
    ensures '>' !in m
  {
    var grown := line + CountSep + count;
    forall k | 0 <= k < |m|
      ensures m[k] != '>'
    {
      assert m[k] == grown[i + k];
      if i + k > |line| + 1 {
        assert grown[i + k] == count[i + k - |line| - 2];
      }
    }
  }

  /** An occurrence that ends inside the front part is an occurrence in it. */
  lemma FoundInFront(front: string, back: string, m: string, i: nat)
    requires OccursAt(front + back, m, i) && i + |m| <= |front|
    ensures Contains(front, m)
  {
    assert (front + back)[i..i + |m|] == front[i..i + |m|];
    assert OccursAt(front, m, i);
    ContainsIff(front, m);
  }

  /** The diagram a run-length encoding is drawn as. */
  function Drawn(rs: seq<Run>): Diagram {
    Diagram([StartTag] + Rendered(rs))
  }

  /** A run's line holds its message. */
  lemma RunLineHoldsMessage(r: Run)
    ensures Contains(RenderRun(r), Text(r.edge))
  {
    if r.count == 1 {
      ContainsPrefix(Text(r.edge), "");
      assert Text(r.edge) + "" == Text(r.edge);
    } else {
      ContainsPrefix(Text(r.edge), CountSep + NatToString(r.count));
      assert Text(r.edge) + (CountSep + NatToString(r.count)) == RenderRun(r);
    }
  }

  /** Bumping a run's line draws the run one call longer. */
  lemma BumpRun(r: Run)
    requires Plain(Text(r.edge)) && r.count >= 1
    ensures Bump(RenderRun(r)) == Success(RenderRun(Run(r.edge, r.count + 1)))
  {
    if r.count == 1 {
      BumpSingleRun(r);
    } else {
      BumpLongRun(r);
    }
  }

  lemma BumpSingleRun(r: Run)
    requires Plain(Text(r.edge)) && r.count == 1
    ensures Bump(RenderRun(r)) == Success(RenderRun(Run(r.edge, 2)))
  {
    BumpUnsuffixed(Text(r.edge));
    NatToStringTwo();
  }

  lemma BumpLongRun(r: Run)
    requires r.count > 1
    ensures Bump(RenderRun(r)) == Success(RenderRun(Run(r.edge, r.count + 1)))
  {
    var t := Text(r.edge);
    var n: int := r.count;
    assert IntToString(n) == NatToString(r.count);
    assert IntToString(n + 1) == NatToString(r.count + 1);
    assert RenderRun(r) == t + CountSep + IntToString(n);
    assert RenderRun(Run(r.edge, r.count + 1)) == t + CountSep + IntToString(n + 1);
    BumpSuffixed(t, n);
  }

  /** A repeated call folds into the last run's line. */
  lemma AddCallRepeats(rs: seq<Run>, e: Edge)
    requires Plain(Text(e))
    requires |rs| > 0 && rs[|rs| - 1].edge == e && rs[|rs| - 1].count >= 1
    ensures AddCall(Drawn(rs), e.caller, e.callee, e.member) == Success(Drawn(Step(rs, e)))
  {
    BumpRun(rs[|rs| - 1]);
    AddCallRepeatsBumped(rs, e);
  }

  /** The same, once the last run's line is known to bump to the line of a
      run one call longer. */
  lemma AddCallRepeatsBumped(rs: seq<Run>, e: Edge)
    requires |rs| > 0 && rs[|rs| - 1].edge == e
    requires Bump(RenderRun(rs[|rs| - 1])) == Success(RenderRun(Run(e, rs[|rs| - 1].count + 1)))
    ensures AddCall(Drawn(rs), e.caller, e.callee, e.member) == Success(Drawn(Step(rs, e)))
  {
    AddCallBumpsLastRun(rs, e);
    DrawnRepeat(rs, e);
  }

  /** The line a repeated call bumps is the last run's line. */
  lemma AddCallBumpsLastRun(rs: seq<Run>, e: Edge)
    requires |rs| > 0 && rs[|rs| - 1].edge == e
    requires Bump(RenderRun(rs[|rs| - 1])) == Success(RenderRun(Run(e, rs[|rs| - 1].count + 1)))
    ensures AddCall(Drawn(rs), e.caller, e.callee, e.member)
      == Success(Diagram(Drawn(rs).lines[..|rs|] + [RenderRun(Run(e, rs[|rs| - 1].count + 1))]))
  {
    DrawnLast(rs);
    RunLineHoldsMessage(rs[|rs| - 1]);
    AddCallBumped(Drawn(rs), e.caller, e.callee, e.member, RenderRun(Run(e, rs[|rs| - 1].count + 1)));
  }

  /** Lengthening the last run redraws only the last line. */
  lemma DrawnRepeat(rs: seq<Run>, e: Edge)
    requires |rs| > 0 && rs[|rs| - 1].edge == e
    ensures Diagram(Drawn(rs).lines[..|rs|] + [RenderRun(Run(e, rs[|rs| - 1].count + 1))]) == Drawn(Step(rs, e))
  {
    DrawnLast(rs);
    DrawnReplaceLast(rs, Run(e, rs[|rs| - 1].count + 1));
    StepRepeats(rs, e);
  }

  /** The last line of a drawing is the last run's line. */
  lemma DrawnLast(rs: seq<Run>)
    requires |rs| > 0
    ensures |Drawn(rs).lines| == |rs| + 1
    ensures Drawn(rs).lines[|rs|] == RenderRun(rs[|rs| - 1])
  {
  }

  /** Repeating the last run's call lengthens that run. */
  lemma StepRepeats(rs: seq<Run>, e: Edge)
    requires |rs| > 0 && rs[|rs| - 1].edge == e
    ensures Step(rs, e) == rs[..|rs| - 1] + [Run(e, rs[|rs| - 1].count + 1)]
  {
  }

  /** Replacing the last line of a drawing draws the runs with the last one
      replaced. */
  lemma DrawnReplaceLast(rs: seq<Run>, r: Run)
    requires |rs| > 0
    ensures var d := Drawn(rs);
      Diagram(d.lines[..|d.lines| - 1] + [RenderRun(r)]) == Drawn(rs[..|rs| - 1] + [r])
  {
    var d := Drawn(rs);
    RenderedReplaceLast(rs, r);
    var kept := Rendered(rs)[..|rs| - 1];
    assert d.lines[..|d.lines| - 1] == [StartTag] + kept;
    assert ([StartTag] + kept) + [RenderRun(r)] == [StartTag] + (kept + [RenderRun(r)]);
  }

  /** A call that differs from the last run's call, and is not found in its
      line, opens a new line. */
  lemma AddCallOpensRun(rs: seq<Run>, e: Edge)
    requires Plain(Text(e))
    requires |rs| > 0 ==> rs[|rs| - 1].edge != e && rs[|rs| - 1].count >= 1
    requires |rs| > 0 ==> !Contains(Text(rs[|rs| - 1].edge), Text(e))
    ensures AddCall(Drawn(rs), e.caller, e.callee, e.member) == Success(Drawn(Step(rs, e)))
  {
    var d := Drawn(rs);
    var msg := Text(e);
    if |rs| == 0 {
      StartTagNeverGroups(e.caller, e.callee, e.member);
      assert d.lines[|d.lines| - 1] == StartTag;
    } else {
      var r := rs[|rs| - 1];
      assert d.lines[|d.lines| - 1] == RenderRun(r);
      if r.count != 1 {
        TextHasArrowHead(e);
        NotInSuffixed(Text(r.edge), msg, r.count);
      }
      assert !Contains(d.lines[|d.lines| - 1], msg);
    }
    AddCallAppended(d, e.caller, e.callee, e.member);
    assert Step(rs, e) == rs + [Run(e, 1)];
    RenderedSnoc(rs, Run(e, 1));
    assert RenderRun(Run(e, 1)) == msg;
    assert [StartTag] + (Rendered(rs) + [msg]) == d.lines + [msg];
  }

  /** With distinguishable calls, the recorder's lines are the start tag
      followed by one line per run: the message once, or the message with
      ` +N` for a run of N >= 2 equal calls. */
  lemma {:induction false} ReplayIsRunLength(es: seq<Edge>)
    requires Distinguishable(es)
    ensures Replay(Init(), es) == Success(Drawn(Runs(es)))
    decreases |es|
  {
    if |es| == 0 {
      assert [StartTag] + Rendered([]) == [StartTag];
    } else {
      var pre := es[..|es| - 1];
      var e := es[|es| - 1];
      assert es == pre + [e];
      assert Distinguishable(pre) by {
        assert forall k :: 0 <= k < |pre| ==> pre[k] == es[k];
      }
      ReplayIsRunLength(pre);
      ReplaySnoc(Init(), pre, e);
      RunsSnoc(pre, e);
      var rs := Runs(pre);
      assert Plain(Text(e));
      if |rs| > 0 && rs[|rs| - 1].edge == e {
        AddCallRepeats(rs, e);
      } else {
        if |rs| > 0 {
          LastRunIsLastCall(pre);
          assert es[|es| - 2] == pre[|pre| - 1];
        }
        AddCallOpensRun(rs, e);
      }
    }
  }

  /** The last run holds the last call. */
  lemma LastRunIsLastCall(es: seq<Edge>)
    requires |es| > 0
    ensures Runs(es)[|Runs(es)| - 1].edge == es[|es| - 1]
  {
    assert Runs(es) == Step(Runs(es[..|es| - 1]), es[|es| - 1]);
  }

  /** Corollary: the diagram has one line per run of equal consecutive calls,
      after the start tag. */
  lemma LinesPerRun(es: seq<Edge>)
    requires Distinguishable(es)
    ensures Replay(Init(), es).Success?
    ensures |Replay(Init(), es).value.lines| == 1 + RunStarts(es)
  {
    ReplayIsRunLength(es);
    RunsCount(es);
  }

  /** When consecutive distinct calls cannot be mistaken for one another, the
      diagram's last line holds the most recent call's message. Without that
      premise it need not: after `c --> b: x +5` a call `c --> b: x +5` bumps
      the line to `c --> b: x +6`. */
  lemma LastLineHoldsLastCall(es: seq<Edge>)
    requires Distinguishable(es) && |es| > 0
    ensures Replay(Init(), es).Success?
    ensures var lines := Replay(Init(), es).value.lines;
      Contains(lines[|lines| - 1], Text(es[|es| - 1]))
  {
    ReplayIsRunLength(es);
    var rs := Runs(es);
    LastRunIsLastCall(es);
    DrawnLast(rs);
    RunLineHoldsMessage(rs[|rs| - 1]);
  }

  // ---------------------------------------------------------------------------
  // Locality
  // ---------------------------------------------------------------------------

  /** `add_call` reads nothing but the last line: recording on any diagram is
      recording on its last line alone, with the earlier lines kept in front. */
  lemma AddCallReadsOnlyLast(d: Diagram, caller: string, callee: string, member: string)
    requires |d.lines| >= 1
    ensures var n := |d.lines|;
      AddCall(d, caller, callee, member) ==
        OnLast(d.lines[..n - 1], AddCall(Diagram([d.lines[n - 1]]), caller, callee, member))
  {
    var n := |d.lines|;
    var front := d.lines[..n - 1];
    var last := d.lines[n - 1];
    var small := Diagram([last]);
    var msg := Message(caller, callee, member);
    assert small.lines[..0] == [];
    if Contains(last, msg) {
      var bumped := Bump(last);
      if bumped.Success? {
        AddCallBumped(d, caller, callee, member, bumped.value);
        AddCallBumped(small, caller, callee, member, bumped.value);
        assert OnLast(front, Success(Diagram([bumped.value]))) == Success(Diagram(front + [bumped.value]));
      } else {
        AddCallRefused(d, caller, callee, member, bumped.error);
        AddCallRefused(small, caller, callee, member, bumped.error);
      }
    } else {
      AddCallAppended(d, caller, callee, member);
      AddCallAppended(small, caller, callee, member);
      assert d.lines + [msg] == front + ([last] + [msg]);
      assert OnLast(front, Success(Diagram([last] + [msg]))) == Success(Diagram(front + ([last] + [msg])));
    }
  }

  /** A recording on the last line alone, put back behind the earlier lines. */
  function OnLast(front: seq<string>, r: Result<Diagram, AddCallError>): Result<Diagram, AddCallError> {
    match r
    case Failure(err) => Failure(err)
    case Success(tail) => Success(Diagram(front + tail.lines))
  }

  /** Grouping is local: A, then B, then A again gives three lines when neither
      message is found in the other's line. */
  lemma InterleavedCallsStaySeparate(a: Edge, b: Edge)
    requires !Contains(Text(a), Text(b)) && !Contains(Text(b), Text(a))
    ensures Replay(Init(), [a, b, a]) == Success(Diagram([StartTag, Text(a), Text(b), Text(a)]))
  {
    StartTagNeverGroups(a.caller, a.callee, a.member);
    AlternatingCalls(Init(), a, b);
    assert [StartTag] + [Text(a)] + [Text(b)] + [Text(a)] == [StartTag, Text(a), Text(b), Text(a)];
  }

  /** On any diagram whose last line does not hold A, the calls A, B, A are
      drawn as three new lines when neither message is found in the other. */
  lemma AlternatingCalls(d0: Diagram, a: Edge, b: Edge)
    requires |d0.lines| >= 1 && !Contains(d0.lines[|d0.lines| - 1], Text(a))
    requires !Contains(Text(a), Text(b)) && !Contains(Text(b), Text(a))
    ensures Replay(d0, [a, b, a]) == Success(Diagram(d0.lines + [Text(a)] + [Text(b)] + [Text(a)]))
  {
    var d1 := Diagram(d0.lines + [Text(a)]);
    var d2 := Diagram(d1.lines + [Text(b)]);
    var d3 := Diagram(d2.lines + [Text(a)]);
    AddCallAppended(d0, a.caller, a.callee, a.member);
    AddCallAppended(d1, b.caller, b.callee, b.member);
    AddCallAppended(d2, a.caller, a.callee, a.member);
    ReplayExtends(d0, [], a, d0, d1);
    assert [] + [a] == [a];
    ReplayExtends(d0, [a], b, d1, d2);
    assert [a] + [b] == [a, b];
    ReplayExtends(d0, [a, b], a, d2, d3);
    assert [a, b] + [a] == [a, b, a];
  }

  /** One more call replayed after a successful replay. */
  lemma ReplayExtends(d: Diagram, es: seq<Edge>, e: Edge, before: Diagram, after: Diagram)
    requires |d.lines| >= 1 && Replay(d, es) == Success(before)
    requires AddCall(before, e.caller, e.callee, e.member) == Success(after)
    ensures Replay(d, es + [e]) == Success(after)
  {
    ReplaySnoc(d, es, e);
  }
}

=== FILE: strings.dfy ===
/** The handful of Python `str` operations the tracer relies on:
    `in` (substring test), `rsplit`, `join`, `str(int)` and `int(str)`. */
module Strings {
  import opened Results

  // ---------------------------------------------------------------------------
  // Substring search
  // ---------------------------------------------------------------------------

  /** `needle` occurs in `hay` at position `i`. */
  predicate OccursAt(hay: string, needle: string, i: nat) {
    i + |needle| <= |hay| && hay[i..i + |needle|] == needle
  }

  /** Python's `needle in hay`: scans `hay` from the left. */
  function Contains(hay: string, needle: string): bool
    decreases |hay|
  {
    if |needle| <= |hay| && hay[..|needle|] == needle then true
    else if |hay| == 0 then false
    else Contains(hay[1..], needle)
  }

  /** The scan finds the needle exactly when it occurs at some position. */
  lemma {:induction false} ContainsIff(hay: string, needle: string)
    ensures Contains(hay, needle) <==> exists i: nat :: OccursAt(hay, needle, i)
    decreases |hay|
  {
    if |needle| <= |hay| && hay[..|needle|] == needle {
      assert OccursAt(hay, needle, 0);
    } else if |hay| > 0 {
      ContainsIff(hay[1..], needle);
      if Contains(hay[1..], needle) {
        var i: nat :| OccursAt(hay[1..], needle, i);
        assert hay[1..][i..i + |needle|] == hay[i + 1..i + 1 + |needle|];
        assert OccursAt(hay, needle, i + 1);
      }
      if |needle| <= |hay| {
        assert hay[0..|needle|] == hay[..|needle|];
      }
      assert !OccursAt(hay, needle, 0);
      if exists i: nat :: OccursAt(hay, needle, i) {
        var i: nat :| OccursAt(hay, needle, i);
        assert i != 0;
        assert hay[1..][i - 1..i - 1 + |needle|] == hay[i..i + |needle|];
        assert OccursAt(hay[1..], needle, i - 1);
      }
    }
  }

  /** Every character of an occurring needle is a character of the haystack. */
  lemma ContainsChars(hay: string, needle: string, c: char)
    requires Contains(hay, needle) && c in needle
    ensures c in hay
  {
    ContainsIff(hay, needle);
    var i: nat :| OccursAt(hay, needle, i);
    var k :| 0 <= k < |needle| && needle[k] == c;
    assert hay[i..i + |needle|][k] == hay[i + k];
  }

  /** An occurrence is found by the scan. */
  lemma OccursContains(hay: string, needle: string, i: nat)
    requires OccursAt(hay, needle, i)
    ensures Contains(hay, needle)
  {
    ContainsIff(hay, needle);
  }

  /** Every string occurs in itself followed by anything. */
  lemma ContainsPrefix(s: string, t: string)
    ensures Contains(s + t, s)
  {
    assert (s + t)[..|s|] == s;
  }

  /** Python's `s.endswith(suffix)`. */
  predicate EndsWith(s: string, suffix: string) {
    |suffix| <= |s| && s[|s| - |suffix|..] == suffix
  }

  // ---------------------------------------------------------------------------
  // rsplit and join
  // ---------------------------------------------------------------------------

  /** Position of the right-most occurrence of `sep` in `s` (Python's `rfind`). */
  function LastIndexOf(s: string, sep: string): (r: Option<nat>)
    ensures r.Some? ==> OccursAt(s, sep, r.value)
    ensures r.Some? ==> forall j: nat :: r.value < j ==> !OccursAt(s, sep, j)
    ensures r.None? ==> forall j: nat :: !OccursAt(s, sep, j)
    decreases |s|
  {
    if |sep| > |s| then
      None
    else if s[|s| - |sep|..] == sep then
      Some(|s| - |sep|)
    else
      var shorter := s[..|s| - 1];
      DropLastOccurrences(s, sep);
      LastIndexOf(shorter, sep)
  }

  /** When `sep` is not a suffix of `s`, dropping the last character of `s`
      keeps every occurrence of `sep`. */
  lemma DropLastOccurrences(s: string, sep: string)
    requires |s| > 0 && !EndsWith(s, sep)
    ensures forall j: nat :: OccursAt(s, sep, j) <==> OccursAt(s[..|s| - 1], sep, j)
  {
    var shorter := s[..|s| - 1];
    forall j: nat ensures OccursAt(s, sep, j) <==> OccursAt(shorter, sep, j) {
      if j + |sep| < |s| {
        assert shorter[j..j + |sep|] == s[j..j + |sep|];
      }
    }
  }

  /** Python's `s.rsplit(sep, maxsplit)` for a non-empty separator: at most
      `maxsplit` cuts, taken at the right-most occurrences. */
  function RSplit(s: string, sep: string, maxsplit: nat): (parts: seq<string>)
    requires |sep| > 0
    ensures 1 <= |parts| <= maxsplit + 1
    decreases maxsplit
  {
    if maxsplit == 0 then
      [s]
    else
      match LastIndexOf(s, sep)
      case None => [s]
      case Some(i) => RSplit(s[..i], sep, maxsplit - 1) + [s[i + |sep|..]]
  }

  /** Every piece after the first comes from the right of a cut, so it holds no
      separator. */
  lemma {:induction false} RSplitPiecesFree(s: string, sep: string, maxsplit: nat)
    requires |sep| > 0
    ensures forall k :: 0 < k < |RSplit(s, sep, maxsplit)| ==> !Contains(RSplit(s, sep, maxsplit)[k], sep)
    decreases maxsplit
  {
    if maxsplit > 0 {
      match LastIndexOf(s, sep)
      case None =>
      case Some(i) =>
        var tail := s[i + |sep|..];
        ContainsIff(tail, sep);
        if Contains(tail, sep) {
          var j: nat :| OccursAt(tail, sep, j);
          assert s[i + |sep| + j..i + |sep| + j + |sep|] == tail[j..j + |sep|];
          assert OccursAt(s, sep, i + |sep| + j);
        }
        RSplitPiecesFree(s[..i], sep, maxsplit - 1);
    }
  }

  /** Python's `sep.join(parts)`. */
  function Join(sep: string, parts: seq<string>): string
  {
    if |parts| == 0 then ""
    else if |parts| == 1 then parts[0]
    else Join(sep, parts[..|parts| - 1]) + sep + parts[|parts| - 1]
  }

  /** Joining one more piece appends the separator and the piece. */
  lemma JoinSnoc(sep: string, front: seq<string>, last: string)
    requires |front| >= 1
    ensures Join(sep, front + [last]) == Join(sep, front) + sep + last
  {
    assert (front + [last])[..|front|] == front;
  }

  /** A string is the text before an occurrence, the separator, and the
      text after it. */
  lemma CutAt(s: string, sep: string, i: nat)
    requires OccursAt(s, sep, i)
    ensures s == s[..i] + sep + s[i + |sep|..]
  {
    assert s[i..i + |sep|] == sep;
  }

  /** One cut of `rsplit`: the right-most occurrence splits off the last piece. */
  lemma RSplitStep(s: string, sep: string, maxsplit: nat, i: nat)
    requires |sep| > 0 && maxsplit > 0 && LastIndexOf(s, sep) == Some(i)
    ensures RSplit(s, sep, maxsplit) == RSplit(s[..i], sep, maxsplit - 1) + [s[i + |sep|..]]
  {
  }

  /** Joining the pieces of an `rsplit` with the same separator gives back the
      original string. */
  lemma {:induction false} JoinRSplit(s: string, sep: string, maxsplit: nat)
    requires |sep| > 0
    ensures Join(sep, RSplit(s, sep, maxsplit)) == s
    decreases maxsplit
  {
    var found := LastIndexOf(s, sep);
    if maxsplit > 0 && found.Some? {
      var i := found.value;
      var front := RSplit(s[..i], sep, maxsplit - 1);
      var tail := s[i + |sep|..];
      RSplitStep(s, sep, maxsplit, i);
      assert RSplit(s, sep, maxsplit) == front + [tail];
      JoinRSplit(s[..i], sep, maxsplit - 1);
      JoinSnoc(sep, front, tail);
      assert Join(sep, front + [tail]) == s[..i] + sep + tail;
      CutAt(s, sep, i);
    }
  }

  /** An occurrence with none to its right is the one `rfind` reports. */
  lemma LastIndexOfIs(s: string, sep: string, i: nat)
    requires OccursAt(s, sep, i)
    requires forall j: nat :: i < j ==> !OccursAt(s, sep, j)
    ensures LastIndexOf(s, sep) == Some(i)
  {
  }

  /** With a one-character separator that `last` does not hold, the cut
      between `front` and `last` is the right-most occurrence. */
  lemma LastCut(front: string, sep: string, last: string)
    requires |sep| == 1 && sep[0] !in last
    ensures LastIndexOf(front + sep + last, sep) == Some(|front|)
  {
    var s := front + sep + last;
    assert s[|front|..|front| + 1] == sep;
    forall j: nat | |front| < j
      ensures !OccursAt(s, sep, j)
    {
      if j < |s| {
        assert s[j] == last[j - |front| - 1];
        assert s[j..j + 1] == [s[j]];
      }
    }
    LastIndexOfIs(s, sep, |front|);
  }

  /** Splitting on a one-character separator undoes a join, provided no piece
      contains the separator and enough cuts are allowed. */
  lemma {:induction false} RSplitJoin(sep: string, parts: seq<string>, maxsplit: nat)
    requires |sep| == 1 && |parts| >= 1 && maxsplit + 1 >= |parts|
    requires forall k :: 0 <= k < |parts| ==> sep[0] !in parts[k]
    ensures RSplit(Join(sep, parts), sep, maxsplit) == parts
    decreases |parts|
  {
    if |parts| > 1 {
      var front := parts[..|parts| - 1];
      var last := parts[|parts| - 1];
      var f := Join(sep, front);
      assert parts == front + [last];
      JoinSnoc(sep, front, last);
      var s := f + sep + last;
      assert Join(sep, parts) == s;
      LastCut(f, sep, last);
      assert s[..|f|] == f;
      assert s[|f| + 1..] == last;
      RSplitJoin(sep, front, maxsplit - 1);
      RSplitStep(s, sep, maxsplit, |f|);
    } else {
      assert parts == [parts[0]];
      assert Join(sep, parts) == parts[0];
      NoCharNoCut(parts[0], sep, maxsplit);
    }
  }

  /** A string without the separator character is not cut at all. */
  lemma NoCharNoCut(s: string, sep: string, maxsplit: nat)
    requires |sep| == 1 && sep[0] !in s
    ensures RSplit(s, sep, maxsplit) == [s]
  {
    forall j: nat ensures !OccursAt(s, sep, j) {
      if j + 1 <= |s| {
        assert s[j..j + 1] == [s[j]];
      }
    }
  }

  /** Joining a piece in front of a non-empty join adds the piece and one
      separator. */
  lemma {:induction false} JoinCons(sep: string, head: string, rest: seq<string>)
    requires |rest| >= 1
    ensures Join(sep, [head] + rest) == head + sep + Join(sep, rest)
    decreases |rest|
  {
    if |rest| > 1 {
      var front := rest[..|rest| - 1];
      var last := rest[|rest| - 1];
      assert rest == front + [last];
      assert [head] + rest == ([head] + front) + [last];
      JoinSnoc(sep, [head] + front, last);
      JoinSnoc(sep, front, last);
      JoinCons(sep, head, front);
    } else {
      assert [head] + rest == [head] + [rest[0]];
      JoinSnoc(sep, [head], rest[0]);
    }
  }

  /** With exactly one cut per later piece, `rsplit` on a one-character
      separator gives back the pieces of a join whatever the first piece
      holds: only the later pieces must be free of the separator. */
  lemma {:induction false} RSplitJoinTail(sep: string, head: string, tail: seq<string>)
    requires |sep| == 1
    requires forall k :: 0 <= k < |tail| ==> sep[0] !in tail[k]
    ensures RSplit(Join(sep, [head] + tail), sep, |tail|) == [head] + tail
    decreases |tail|
  {
    var parts := [head] + tail;
    if |tail| > 0 {
      var front := parts[..|parts| - 1];
      var last := parts[|parts| - 1];
      var f := Join(sep, front);
      assert parts == front + [last];
      assert front == [head] + tail[..|tail| - 1];
      JoinSnoc(sep, front, last);
      var s := f + sep + last;
      LastCut(f, sep, last);
      assert s[..|f|] == f;
      assert s[|f| + 1..] == last;
      RSplitJoinTail(sep, head, tail[..|tail| - 1]);
      RSplitStep(s, sep, |tail|, |f|);
    } else {
      assert parts == [head];
    }
  }

  /** With a one-character separator a join of `n` pieces is at least `n - 1`
      characters long. */
  lemma {:induction false} JoinLength(sep: string, parts: seq<string>)
    requires |sep| == 1
    ensures |Join(sep, parts)| + 1 >= |parts|
    decreases |parts|
  {
    if |parts| > 1 {
      JoinLength(sep, parts[..|parts| - 1]);
    }
  }

  // ---------------------------------------------------------------------------
  // Decimal rendering: Python's str(int)
  // ---------------------------------------------------------------------------

  predicate IsDigit(c: char) {
    '0' <= c <= '9'
  }

  function DigitChar(d: nat): (c: char)
    requires d < 10
    ensures IsDigit(c)
  {
    ['0', '1', '2', '3', '4', '5', '6', '7', '8', '9'][d]
  }

  function DigitValue(c: char): nat
    requires IsDigit(c)
  {
    (c as int - '0' as int) as nat
  }

  /** Decimal digits of `n`, most significant first, no leading zeros. */
  function NatToString(n: nat): (s: string)
    ensures |s| >= 1
    ensures forall k :: 0 <= k < |s| ==> IsDigit(s[k])
    ensures s[0] != '0' || n == 0
  {
    if n < 10 then [DigitChar(n)]
    else NatToString(n / 10) + [DigitChar(n % 10)]
  }

  lemma NatToStringTwo()
    ensures NatToString(2) == "2"
  {
  }

  /** Python's `str(i)` for an integer: a minus sign for negatives. */
  function IntToString(i: int): (s: string)
    ensures |s| >= 1
    ensures forall k :: 0 <= k < |s| ==> IsDigit(s[k]) || (k == 0 && s[k] == '-')
    ensures i >= 0 ==> s == NatToString(i)
  {
    if i < 0 then "-" + NatToString(-i) else NatToString(i)
  }

  // ---------------------------------------------------------------------------
  // Decimal parsing: Python's int(str)
  // ---------------------------------------------------------------------------

  /** The ASCII characters Python's `int()` strips around its argument. */
  predicate IsSpace(c: char) {
    ('\t' <= c <= '\r') || ('\U{1C}' <= c <= ' ')
  }

  function StripLeft(s: string): (r: string)
    ensures |r| == 0 || !IsSpace(r[0])
    decreases |s|
  {
    if |s| > 0 && IsSpace(s[0]) then StripLeft(s[1..]) else s
  }

  function StripRight(s: string): (r: string)
    ensures |r| == 0 || !IsSpace(r[|r| - 1])
    decreases |s|
  {
    if |s| > 0 && IsSpace(s[|s| - 1]) then StripRight(s[..|s| - 1]) else s
  }

  /** Python's `str.strip()` restricted to ASCII whitespace. */
  function Strip(s: string): string {
    StripRight(StripLeft(s))
  }

  /** A decimal literal body: digits, with single underscores allowed
      between two digits (`1_000`). */
  predicate IsDigitRun(s: string) {
    && |s| >= 1
    && IsDigit(s[0])
    && IsDigit(s[|s| - 1])
    && (forall k :: 0 <= k < |s| ==> IsDigit(s[k]) || s[k] == '_')
    && !Contains(s, "__")
  }

  /** Value of a digit run, underscores ignored. */
  function DigitRunValue(s: string): nat
    requires forall k :: 0 <= k < |s| ==> IsDigit(s[k]) || s[k] == '_'
  {
    if |s| == 0 then 0
    else if s[|s| - 1] == '_' then DigitRunValue(s[..|s| - 1])
    else DigitRunValue(s[..|s| - 1]) * 10 + DigitValue(s[|s| - 1])
  }

  /** Python's `int(s)` in base 10: surrounding whitespace, an optional sign,
      then a digit run; `None` where Python raises `ValueError`. */
  function ParseInt(s: string): (r: Option<int>)
    ensures r.Some? ==> exists k :: 0 <= k < |s| && IsDigit(s[k])
  {
    var t := Strip(s);
    var negative := |t| > 0 && t[0] == '-';
    var body := if |t| > 0 && (t[0] == '-' || t[0] == '+') then t[1..] else t;
    if IsDigitRun(body) then
      StripKeepsChars(s, body[0]);
      var v: int := DigitRunValue(body);
      Some(if negative then -v else v)
    else
      None
  }

  /** A non-space character that survives stripping was already in the input. */
  lemma StripKeepsChars(s: string, c: char)
    requires c in Strip(s)
    ensures exists k :: 0 <= k < |s| && s[k] == c
  {
    StripLeftSub(s);
    StripRightSub(StripLeft(s));
  }

  lemma {:induction false} StripLeftSub(s: string)
    ensures forall c :: c in StripLeft(s) ==> c in s
    decreases |s|
  {
    if |s| > 0 && IsSpace(s[0]) {
      StripLeftSub(s[1..]);
    }
  }

  lemma {:induction false} StripRightSub(s: string)
    ensures forall c :: c in StripRight(s) ==> c in s
    decreases |s|
  {
    if |s| > 0 && IsSpace(s[|s| - 1]) {
      StripRightSub(s[..|s| - 1]);
    }
  }

  lemma {:induction false} NatToStringValue(n: nat)
    ensures DigitRunValue(NatToString(n)) == n
  {
    if n >= 10 {
      var s := NatToString(n);
      var front := NatToString(n / 10);
      assert s[..|s| - 1] == front;
      NatToStringValue(n / 10);
    }
  }

  /** Parsing a rendered integer gives it back: `int(str(i)) == i`. */
  lemma ParseIntToString(i: int)
    ensures ParseInt(IntToString(i)) == Some(i)
  {
    var n: nat := if i < 0 then -i else i;
    var digits := NatToString(n);
    var s := IntToString(i);
    DigitsAreRun(n);
    NatToStringValue(n);
    NoSpaceAtEnds(s);
    if i < 0 {
      assert s == "-" + digits;
      assert s[1..] == digits;
    } else {
      assert s == digits;
    }
  }

  /** Rendered digits form a digit run. */
  lemma DigitsAreRun(n: nat)
    ensures IsDigitRun(NatToString(n))
  {
    var digits := NatToString(n);
    if Contains(digits, "__") {
      ContainsChars(digits, "__", '_');
    }
  }

  /** A string that neither starts nor ends with a space is its own strip. */
  lemma NoSpaceAtEnds(s: string)
    requires |s| >= 1 && !IsSpace(s[0]) && !IsSpace(s[|s| - 1])
    ensures Strip(s) == s
  {
    assert StripLeft(s) == s;
  }
}
